=== FILE: README.md ===
# babel-tsf, modelled in Dafny

`run.js` is a small HTTP development server that minifies JavaScript with
Babel. It adds one plugin of its own: a `TemplateLiteral` visitor that
squeezes the whitespace of template literals. A request names either one
file, whose minified code becomes the response body, or a folder. A folder
is walked recursively; every `.js` file that is not already a `.min.js`
output is minified and written beside itself as `<name>.min.js`, and the
response is a plain-text report of the files that succeeded and failed.

This project models the decision logic of that program and proves
properties of it:

- `Whitespace`: the three regular-expression rewrites of the visitor.
  - `/\s*[\r\n\t]\s*$/` → `''` (`TrimEnd`)
  - `/^\s*[\r\n\t]\s*/` → `''` (`TrimStart`)
  - `/\s+/g` → `' '` (`Collapse`)

  `\s` is the ECMAScript set of white space and line terminators. Each
  rewrite is paired with an independent statement of what the regular
  expression does: where the leftmost match starts, the longest anchored
  match, or a character-at-a-time rule.
- `Normalizer`: the visitor. For each quasi (literal segment) of a template
  literal, `raw` and `cooked` are rewritten separately. The trailing trim
  applies unless the quasi is the last, and the leading trim unless it is
  the first; the collapse always applies.
- `Paths`: the file filter of the folder walk, and the output name
  `filePath.replace(/\.js$/, '.min.js')`.
- `Folder`: `minifyAndWriteFile` and the recursive `minifyFolder` over an
  in-memory directory tree. The Babel transform and the file write are
  oracles passed in as functions. An unreadable directory aborts the walk
  wherever it sits in the tree, not only at the root (run.js:109-123): the
  rejection of a nested `processDirectory` call propagates through the
  awaited recursion. Outputs written before the abort stay written.
- `Report`: the succeeded/failed split and the chunks written for the
  folder report.
- `Server`: the request dispatch, the response of each mode, and the files a
  request writes.
- `Js`: `Error.prototype.toString` (section 20.5.3.4 of ECMA-262) and the
  decimal rendering of the counts.
- `Wrappers`: `Option` and `Result`.

## Model

| member | source | states |
|---|---|---|
| Whitespace.TrimEnd | run.js:47-48 | the result is a prefix of the input and only whitespace is cut off |
| Whitespace.TrimEndRemovesLeftmostMatch | run.js:47-48 | when `/\s*[\r\n\t]\s*$/` matches, the text is cut exactly at the leftmost index where a match starts (an all-whitespace tail holding `\r`, `\n` or `\t`); when it does not match, the text is unchanged |
| Whitespace.TrimStart | run.js:53-54 | the result is a suffix of the input and only whitespace is cut off |
| Whitespace.TrimStartRemovesLongestMatch | run.js:53-54 | when `/^\s*[\r\n\t]\s*/` matches, exactly the longest matching prefix (all whitespace, holding a break) is removed; otherwise the text is unchanged |
| Whitespace.TrimEndKeepsNonWs | run.js:47-48 | the trailing trim keeps every non-whitespace character, in order |
| Whitespace.TrimStartKeepsNonWs | run.js:53-54 | the leading trim keeps every non-whitespace character, in order |
| Whitespace.Collapse | run.js:58-59 | the result has no whitespace other than single spaces, never two in a row; it has the same non-whitespace characters in order; it is no longer than the input and empty exactly when the input is; it starts and ends with whitespace exactly when the input does |
| Whitespace.CollapseMatchesCharRule | run.js:58-59 | the run-by-run collapse equals an independent character rule: whitespace after whitespace is dropped, other whitespace becomes `' '`, everything else is kept |
| Whitespace.CollapseFixpoint | run.js:58-59 | collapsing leaves a text unchanged if and only if it is already collapsed |
| Whitespace.CollapsedHasNoBreak | run.js:58-59 | collapsed text holds no `\r`, `\n` or `\t` |
| Whitespace.LeadingWsLenIs | run.js:53 | the leading whitespace run is the one prefix that is all whitespace and is followed by a non-whitespace character or the end |
| Whitespace.TrailingWsLenIs | run.js:47 | the trailing whitespace run is the one suffix that is all whitespace and is preceded by a non-whitespace character or the start |
| Normalizer.NormalizeText | run.js:39-59 | the rewrite of one segment text is collapsed, keeps every non-whitespace character in order, is no longer than the input, and for a segment that is both first and last is just the collapse; for a text with a non-whitespace character it is exactly the collapse of the slice of the input between the two cuts, where the leading run is cut off only when the segment is not first and that run holds a break, and the trailing run only when the segment is not last and that run holds a break, so every whitespace run between them becomes one space; a text made only of whitespace becomes nothing when it is empty or holds a break in a segment that is not alone, and one space otherwise; a segment with a non-whitespace character ends in whitespace exactly when its trailing whitespace run is non-empty and the segment is last or the run holds no break, and starts in whitespace exactly when its leading run is non-empty and the segment is first or the run holds no break |
| Normalizer.TrimBoundaries | run.js:45-55 | the two trims, in their order, remove only whitespace; on text with a non-whitespace character they leave exactly the slice between the two cuts, each decided by its own boundary run and the segment's position; text made only of whitespace is emptied when a trim at its position fires on a break and is otherwise kept whole |
| Normalizer.TrimsKeepMiddle | run.js:45-55 | on text with a non-whitespace character, the trailing trim and then the leading trim leave the slice of the input between the cut before the trailing run and the cut after the leading run |
| Normalizer.TrimsOfAllWs | run.js:45-55 | a segment made only of whitespace is emptied by the two trims when it holds a break and is not both first and last, and is kept whole otherwise |
| Whitespace.CollapseOfAllWs | run.js:58-59 | non-empty text made only of whitespace collapses to one space |
| Normalizer.TrimsKeepBoundaries | run.js:46-55 | after the two trims, a segment with a non-whitespace character ends in whitespace exactly when it has a trailing whitespace run and it is last or that run holds no break, and starts in whitespace exactly when it has a leading whitespace run and it is first or that run holds no break |
| Normalizer.TrimEndDecidesLast | run.js:46-49 | after the trailing trim, text with a non-whitespace character ends in whitespace exactly when it has a trailing run and the segment is last or that run holds no break |
| Normalizer.TrimEndKeepsHead | run.js:46-49 | the trailing trim of text with a non-whitespace character leaves its leading run, and whether it starts with whitespace, unchanged |
| Normalizer.TrimStartDecidesFirst | run.js:52-55 | after the leading trim, text with a non-whitespace character starts with whitespace exactly when it has a leading run and the segment is first or that run holds no break |
| Normalizer.NormalizeTextIdempotent | run.js:39-59 | rewriting a segment's result again, at the same position, changes nothing |
| Normalizer.NormalizeFixesCollapsed | run.js:45-59 | already-collapsed text passes through the rewrite unchanged at any position |
| Normalizer.TrimsFixBreakFree | run.js:45-55 | neither trim changes a text that holds no `\r`, `\n` or `\t` |
| Normalizer.TrimEndByTrailingRun | run.js:46-49 | the trailing trim removes the maximal trailing whitespace run exactly when that run holds a break |
| Normalizer.TrimStartByLeadingRun | run.js:52-55 | the leading trim removes the maximal leading whitespace run exactly when that run holds a break |
| Normalizer.NonLastLosesBreakingTail | run.js:46-59 | a segment that is not last, whose trailing whitespace holds a break, comes out with no trailing whitespace at all |
| Normalizer.NonFirstLosesBreakingHead | run.js:52-59 | a segment that is not first, whose leading whitespace holds a break, comes out with no leading whitespace at all |
| Normalizer.AllBreakingWsVanishes | run.js:46-55 | a middle or last segment made only of whitespace, holding a break, is removed entirely |
| Normalizer.NormalizeQuasis | run.js:38-63 | the visitor keeps the number of quasis; every resulting `raw` and `cooked` is collapsed and keeps its non-whitespace characters; a lone quasi is just collapsed; the quasi at index 0 is the one that keeps a leading run holding a break, and the quasi at the last index the one that keeps a trailing run holding a break; the quasi at every index is its own `raw` and `cooked` rewritten at that index's position, first exactly at index 0 and last exactly at the final index |
| Normalizer.NormalizeQuasisIdempotent | run.js:38-63 | running the visitor on its own output changes nothing |
| Normalizer.RawAndCookedIndependent | run.js:42-62 | the resulting `raw` texts depend only on the input `raw` texts, and the `cooked` texts only on the input `cooked` texts |
| Normalizer.TwoQuasis | run.js:39-40 | of two quasis, the first is rewritten as first and not last, the second as last and not first |
| Normalizer.HelloWorldExample | run.js:38-63 | written with a real line break and tab (not the escapes), `Hello\n\t  ${x}\n\tWorld` becomes `Hello${x}World` in both `raw` and `cooked` |
| Normalizer.MiddleBreakBecomesSpace | run.js:46-59 | in a middle segment, `a`, line feed, `b` becomes `a b`: a break away from both ends is not trimmed but collapsed to one space |
| Normalizer.EscapedBreakKeptInRaw | run.js:42-59 | an escaped `\n` is two plain characters in `raw` and survives there, but is a line feed in `cooked` and is trimmed there |
| Paths.MinifiedPath | run.js:93 | a path ending in `.js` keeps its stem and ends in `.min.js`; any other path is unchanged; the result is never an eligible input name |
| Paths.SourcePathRoundTrip | run.js:93 | the source path can be read back from the output path |
| Paths.MinifiedPathInjective | run.js:93 | two different `.js` sources never share an output path |
| Paths.MinifiedPathOfStem | run.js:93 | `stem.js` becomes `stem.min.js` |
| Paths.OutputBesideSource | run.js:93 | the output of `dir/name.js` is `dir/name.min.js`, in the same directory |
| Folder.FileResultOf | run.js:92-103 | the record names the source; it succeeds exactly when both the transform and the write of `code + '\n'` succeed; a success names the `.min.js` output, which is never itself eligible; a transform failure carries that error's message, and a write failure carries the write error's message |
| Folder.JoinKeepsEligibility | run.js:112-116 | the filter on the entry name gives the same answer as it would on the joined path |
| Folder.EligibleFiles | run.js:108-120 | every path the reference walk lists passes the `.js`/not-`.min.js` filter |
| Folder.WalkFollowsEligibleFiles | run.js:105-125 | the walk's records are exactly `minifyAndWriteFile` of the eligible files, in depth-first listing order, and its writes are theirs; it completes exactly when every directory can be read, and otherwise rejects with the error of the first unreadable directory in depth-first order, after exactly the eligible files met before it |
| Folder.WalkEntryFollows | run.js:111-119 | one entry of the loop processes that entry's eligible files in order, and completes exactly when every directory below it can be read; otherwise it rejects with the first unreadable directory's error after exactly the files met before it |
| Folder.WalkWritesEligiblePrefix | run.js:108-123 | the walk writes the outputs of exactly the eligible files met before the first unreadable directory, in order, which is a prefix of them, and all of them when every directory can be read |
| Folder.EligibleFilesDistinct | run.js:108-120 | on a tree whose directory entries have distinct, separator-free names, no file is processed twice |
| Folder.FilesInsideDir | run.js:112 | every file found under a directory lies inside it, under the name of one of its entries |
| Folder.ExampleEligibleFiles | run.js:111-119 | in a folder with `a.js`, `a.min.js`, `notes.txt`, `sub/c.js` and a link `b.js`, only `a.js` and `sub/c.js` are minified |
| Folder.ExampleUnreadableStopsWalk | run.js:109-115 | a sub-directory that cannot be read rejects the walk; the file before it has already been written, and the file after it never is |
| Folder.ExampleNestedUnreadable | run.js:109-118 | an unreadable directory inside `d/sub` rejects the walk after `d/sub/x.js` has been written, and the later `d/z.js` is never written |
| Folder.FilesBeforeAbortPrefix | run.js:108-123 | the files met before the first unreadable directory are a prefix of the eligible files, and all of them when every directory can be read |
| Folder.EntryFilesBeforeAbortPrefix | run.js:111-119 | the same for the files one entry stands for |
| Report.SucceededOf | run.js:133 | the succeeded group holds only succeeded records and is no longer than the walk |
| Report.FailedOf | run.js:134 | the failed group holds only failed records and is no longer than the walk |
| Report.FilterMembers | run.js:133-134 | a record is in the succeeded group if and only if the walk produced it and it succeeded; likewise for failed |
| Report.PartitionIsPermutation | run.js:133-134 | together the two groups are the walk's records, each exactly as often as the walk produced it |
| Report.PartitionCounts | run.js:137-139 | the processed count is the succeeded count plus the failed count |
| Report.FiltersDistribute | run.js:133-134 | both filters keep the walk's order |
| Report.ReportWrites | run.js:136-154 | the first four chunks are the summary; the number of chunks is four, plus the succeeded group with heading and empty line when non-empty, plus the failed group with heading when non-empty |
| Report.ReportGroups | run.js:141-154 | the succeeded heading comes right after the summary, then one line `source -> output` per succeeded record in walk order, then an empty line; the failed heading follows, then one line `source: error` per failed record in walk order |
| Report.ReportCounts | run.js:136-139 | the report opens with the title, and the processed count it prints equals succeeded plus failed |
| Report.SucceededRecordsReported | run.js:141-147 | every succeeded record of the walk has its line in the succeeded group |
| Report.SucceededGroupFromRecords | run.js:141-147 | every line of the succeeded group is the line of a succeeded record of the walk |
| Report.FailedRecordsReported | run.js:149-154 | every failed record of the walk has its line in the failed group |
| Report.FailedGroupFromRecords | run.js:149-154 | every line of the failed group is the line of a failed record of the walk |
| Report.EmptyReport | run.js:136-154 | a walk without files reports the title and three zero counts, and neither group |
| Report.ThreeFilesOneFailure | run.js:136-154 | three files, the second failing: the counts 3/2/1, both succeeded files in order with an empty line after, then the failed one with its message |
| Js.ErrorToString | run.js:157 | the string form ends with the message and starts with the name, joined by `": "` when both are present; an empty name gives just the message and an empty message just the name |
| Js.NatToString | run.js:137-139 | a count is printed as a non-empty string of decimal digits without a leading zero |
| Js.NatToStringRoundTrip | run.js:137-139 | the printed count reads back as the same number |
| Server.Dispatch | run.js:131-176 | folder mode exactly when `folder` is present and non-empty; file mode exactly when `folder` is not usable and `file` is; usage otherwise; the mode carries the chosen path |
| Server.Handle | run.js:127-181 | every response has status 200 and type `text/plain`; only folder mode writes files; the usage response is its two lines |
| Server.FolderErrorIffAborted | run.js:131-157 | a folder response starts with the error marker exactly when the walk was rejected, and with the report title exactly when it completed; a rejected walk's response is the marker and `err.toString()` and nothing else, where `err` is the folder's own read error or else that of the first unreadable directory below it |
| Server.FolderWritesAreWalkWrites | run.js:132 | a folder request writes exactly what its walk writes |
| Server.FolderWritesEligibleFiles | run.js:105-125 | a folder request writes the outputs of exactly the eligible files met before the first unreadable directory, in order, which is all of them when every directory can be read, and nothing when the folder itself cannot be read |
| Server.FolderReportCoversEligibleFiles | run.js:132-154 | when the whole tree can be read, the response is the report of exactly one record per eligible file, in walk order |
| Server.FileRequestBody | run.js:162-171 | a file request answers with the minified code, or with the error marker and the error's string form |
| Server.EmptyFolderFallsThrough | run.js:131-162 | an empty `folder` parameter is as good as none: the request falls through to `file` or to the usage text |
| Server.FolderWinsOverFile | run.js:131 | a non-empty `folder` parameter decides the request, whatever `file` says |

## Left out

- The HTTP server, URL parsing, logging and `res.end()`. A request is
  modelled as the two query values it reads and a response as its status,
  content type and the chunks passed to `res.write`.
- Array-valued query parameters (`?file=a&file=b`). A query value is
  modelled as a string or absent.
- Babel itself and `getMinifyOptions`: the transform is an oracle
  `string -> Result<string, JsError>`. The visitor is modelled on the quasi
  texts, not on Babel's AST.
- The real file system. `readdir` is an in-memory tree whose directories
  carry the result of reading them. `writeFile` is an oracle that returns an
  optional error; the writes a walk issues are recorded in order.
- Promises and `async`/`await`: every operation is a function of its
  inputs. An unreadable directory anywhere in the tree rejects the whole
  walk, as the awaited recursion does.
- `path.join` normalisation (`..`, repeated or trailing separators,
  Windows separators): `JoinPath` is `dir + "/" + name`.
- The falsy-rejection branch of file mode (run.js:167-171). The transform
  rejects with an `Error` object, never a falsy value.
- A `null` `cooked` value (an invalid escape in a tagged template). Both
  texts are strings.
- JavaScript strings are UTF-16 code-unit sequences, while Dafny strings
  are sequences of Unicode scalar values. This makes no difference to the
  whitespace rewrites, because every `\s` character is a single code unit.
  A `cooked` text holding a lone surrogate (from an escape such as
  `\uD800`) cannot be written as a Dafny string at all, so such segments
  are outside the model.
- Report.ReportWrites: its own contract states only the summary and the
  chunk count; the placement of the headings and record lines is stated by
  `Report.ReportGroups`.
- Folder.EligibleFilesDistinct: stated only for trees whose entries have
  distinct names without a separator, as a real directory listing does.

=== FILE: folder.dfy ===
/** Folder mode: the recursive directory walk of `minifyFolder`, which hands
    every eligible file to `minifyAndWriteFile` and collects one result
    record per file. The file system is an in-memory tree, the Babel
    transform and the file write are oracles given as parameters. */
module Folder {
  import opened Wrappers
  import opened Js
  import opened Paths

  /** One directory entry as `readdir(dir, { withFileTypes: true })` reports
      it. A directory carries the outcome of reading it. `Other` is anything
      that is neither a regular file nor a directory (a symbolic link, a
      socket, a device), which the walk skips. */
  datatype Entry =
    | File(name: string)
    | Dir(name: string, listing: Result<Listing, JsError>)
    | Other(name: string)

  /** The entries of one directory, in the order `readdir` returns them. */
  datatype Listing = End | Next(entry: Entry, more: Listing)

  /** The record `minifyAndWriteFile` returns: `{success: true, source, output}`
      or `{success: false, source, error}`. */
  datatype FileResult =
    | Succeeded(source: string, output: string)
    | Failed(source: string, error: string)

  /** One `fs.promises.writeFile(path, content)` call. */
  datatype Write = Write(path: string, content: string)

  /** What a walk did: the writes it issued, the records it collected, and
      the error that stopped it, if a directory could not be read. */
  datatype Walk = Walk(writes: seq<Write>, results: seq<FileResult>, aborted: Option<JsError>)

  /** The write `minifyAndWriteFile` issues for a file: the minified code plus
      one newline, to the derived `.min.js` path; none when the transform fails. */
  function WriteOf(filePath: string, transform: string -> Result<string, JsError>): seq<Write>
  {
    match transform(filePath)
    case Success(code) => [Write(MinifiedPath(filePath), code + "\n")]
    case Failure(_) => []
  }

  /** The record `minifyAndWriteFile` returns for a file. The file succeeds
      exactly when both the transform and the write succeed; a failure
      carries the message of whichever error was caught. */
  function FileResultOf(filePath: string, transform: string -> Result<string, JsError>,
                        write: (string, string) -> Option<JsError>): (r: FileResult)
    ensures r.source == filePath
    ensures r.Succeeded? <==>
              transform(filePath).Success? && write(MinifiedPath(filePath), transform(filePath).value + "\n").None?
    ensures r.Succeeded? ==> r.output == MinifiedPath(filePath) && !IsEligibleName(r.output)
    ensures transform(filePath).Failure? ==> r == Failed(filePath, transform(filePath).error.message)
    ensures transform(filePath).Success? && write(MinifiedPath(filePath), transform(filePath).value + "\n").Some? ==>
              r == Failed(filePath, write(MinifiedPath(filePath), transform(filePath).value + "\n").value.message)
  {
    match transform(filePath)
    case Failure(e) => Failed(filePath, e.message)
    case Success(code) =>
      match write(MinifiedPath(filePath), code + "\n")
      case Some(e) => Failed(filePath, e.message)
      case None => Succeeded(filePath, MinifiedPath(filePath))
  }

  /** One entry of `processDirectory`'s loop: a sub-directory is walked in
      full, an eligible file is minified, anything else is skipped. A
      directory that cannot be read rejects the walk. */
  function WalkEntry(dir: string, e: Entry, transform: string -> Result<string, JsError>,
                     write: (string, string) -> Option<JsError>): Walk
    decreases e
  {
    match e
    case File(name) =>
      if IsEligibleName(name) then
        var path := JoinPath(dir, name);
        Walk(WriteOf(path, transform), [FileResultOf(path, transform, write)], None)
      else Walk([], [], None)
    case Dir(name, Success(children)) =>
      assert children < e.listing;
      WalkEntries(JoinPath(dir, name), children, transform, write)
    case Dir(_, Failure(err)) => Walk([], [], Some(err))
    case Other(_) => Walk([], [], None)
  }

  /** `processDirectory`, over the listing of directory `dir`: entries in
      order, stopping at the first rejection. A file whose transform or write
      fails only yields a failed record and the loop goes on. */
  function WalkEntries(dir: string, entries: Listing, transform: string -> Result<string, JsError>,
                       write: (string, string) -> Option<JsError>): Walk
    decreases entries
  {
    if entries == End then Walk([], [], None)
    else
      var head := WalkEntry(dir, entries.entry, transform, write);
      if head.aborted.Some? then head
      else
        var rest := WalkEntries(dir, entries.more, transform, write);
        Walk(head.writes + rest.writes, head.results + rest.results, rest.aborted)
  }

  /** `minifyFolder(folderPath)`: reading the folder itself may fail too. */
  function MinifyFolder(folderPath: string, listing: Result<Listing, JsError>,
                        transform: string -> Result<string, JsError>,
                        write: (string, string) -> Option<JsError>): Walk
  {
    match listing
    case Success(entries) => WalkEntries(folderPath, entries, transform, write)
    case Failure(err) => Walk([], [], Some(err))
  }

  // ---------------------------------------------------------------------
  // The reference walk: which files there are to minify
  // ---------------------------------------------------------------------

  /** The eligible files an entry of `dir` stands for: itself when it is an
      eligible file, the eligible files below it when it is a readable
      directory, none otherwise. */
  function EntryFiles(dir: string, e: Entry): (files: seq<string>)
    ensures forall k :: 0 <= k < |files| ==> IsEligibleName(files[k])
    decreases e
  {
    match e
    case File(name) =>
      if IsEligibleName(name) then
        JoinKeepsEligibility(dir, name);
        [JoinPath(dir, name)]
      else []
    case Dir(name, Success(children)) =>
      assert children < e.listing;
      EligibleFiles(JoinPath(dir, name), children)
    case _ => []
  }

  /** The eligible files under `dir`, depth first in listing order; an
      unreadable directory contributes none. */
  function EligibleFiles(dir: string, entries: Listing): (files: seq<string>)
    ensures forall k :: 0 <= k < |files| ==> IsEligibleName(files[k])
    decreases entries
  {
    if entries == End then [] else EntryFiles(dir, entries.entry) + EligibleFiles(dir, entries.more)
  }

  /** Every directory at or below the entry can be read. */
  predicate EntryReadable(e: Entry)
    decreases e
  {
    match e
    case Dir(_, Success(children)) => assert children < e.listing; AllReadable(children)
    case Dir(_, Failure(_)) => false
    case _ => true
  }

  /** Every directory of the tree can be read. */
  predicate AllReadable(entries: Listing)
    decreases entries
  {
    entries == End || (EntryReadable(entries.entry) && AllReadable(entries.more))
  }

  /** The error of the first directory at or below the entry, depth first in
      listing order, that cannot be read. */
  function EntryReadError(e: Entry): Option<JsError>
    decreases e
  {
    match e
    case Dir(_, Success(children)) => assert children < e.listing; FirstReadError(children)
    case Dir(_, Failure(err)) => Some(err)
    case _ => None
  }

  /** The error of the first directory of the tree, depth first in listing
      order, that cannot be read. */
  function FirstReadError(entries: Listing): Option<JsError>
    decreases entries
  {
    if entries == End then None
    else if EntryReadError(entries.entry).Some? then EntryReadError(entries.entry)
    else FirstReadError(entries.more)
  }

  /** The eligible files an entry of `dir` stands for that come before the
      first directory that cannot be read. */
  function EntryFilesBeforeAbort(dir: string, e: Entry): seq<string>
    decreases e
  {
    match e
    case Dir(name, Success(children)) =>
      assert children < e.listing;
      FilesBeforeAbort(JoinPath(dir, name), children)
    case _ => EntryFiles(dir, e)
  }

  /** The eligible files under `dir`, depth first in listing order, that come
      before the first directory that cannot be read. */
  function FilesBeforeAbort(dir: string, entries: Listing): seq<string>
    decreases entries
  {
    if entries == End then []
    else if !EntryReadable(entries.entry) then EntryFilesBeforeAbort(dir, entries.entry)
    else EntryFiles(dir, entries.entry) + FilesBeforeAbort(dir, entries.more)
  }

  /** The files met before the first unreadable directory are a prefix of
      the eligible files, and all of them when the entry can be read in full. */
  lemma {:induction false} EntryFilesBeforeAbortPrefix(dir: string, e: Entry)
    ensures |EntryFilesBeforeAbort(dir, e)| <= |EntryFiles(dir, e)|
    ensures EntryFiles(dir, e)[..|EntryFilesBeforeAbort(dir, e)|] == EntryFilesBeforeAbort(dir, e)
    ensures EntryReadable(e) ==> EntryFilesBeforeAbort(dir, e) == EntryFiles(dir, e)
    decreases e
  {
    match e {
      case Dir(name, Success(children)) =>
        assert children < e.listing;
        FilesBeforeAbortPrefix(JoinPath(dir, name), children);
      case _ =>
        assert EntryFiles(dir, e)[..|EntryFiles(dir, e)|] == EntryFiles(dir, e);
    }
  }

  /** The files met before the first unreadable directory are a prefix of
      the eligible files, and all of them when every directory can be read. */
  lemma {:induction false} FilesBeforeAbortPrefix(dir: string, entries: Listing)
    ensures |FilesBeforeAbort(dir, entries)| <= |EligibleFiles(dir, entries)|
    ensures EligibleFiles(dir, entries)[..|FilesBeforeAbort(dir, entries)|] == FilesBeforeAbort(dir, entries)
    ensures AllReadable(entries) ==> FilesBeforeAbort(dir, entries) == EligibleFiles(dir, entries)
    decreases entries
  {
    if entries != End {
      var here := EntryFiles(dir, entries.entry);
      var rest := EligibleFiles(dir, entries.more);
      EntryFilesBeforeAbortPrefix(dir, entries.entry);
      if !EntryReadable(entries.entry) {
        var p := EntryFilesBeforeAbort(dir, entries.entry);
        assert (here + rest)[..|p|] == here[..|p|];
      } else {
        var q := FilesBeforeAbort(dir, entries.more);
        FilesBeforeAbortPrefix(dir, entries.more);
        assert (here + rest)[..|here| + |q|] == here + rest[..|q|];
      }
    }
  }

  /** The writes issued for `files`, in order. */
  function WritesFor(files: seq<string>, transform: string -> Result<string, JsError>): seq<Write>
  {
    if files == [] then [] else WriteOf(files[0], transform) + WritesFor(files[1..], transform)
  }

  lemma {:induction false} WritesForAppend(a: seq<string>, b: seq<string>, transform: string -> Result<string, JsError>)
    ensures WritesFor(a + b, transform) == WritesFor(a, transform) + WritesFor(b, transform)
  {
    if a != [] {
      assert (a + b)[1..] == a[1..] + b;
      WritesForAppend(a[1..], b, transform);
    } else {
      assert a + b == b;
    }
  }

  /** Testing the entry name is testing the full path: `dir/` cannot turn a
      `.js` name into a `.min.js` path. */
  lemma JoinKeepsEligibility(dir: string, name: string)
    ensures IsEligibleName(JoinPath(dir, name)) <==> IsEligibleName(name)
  {
    var p := JoinPath(dir, name);
    if EndsWith(name, JsSuffix) {
      assert p[|p| - |JsSuffix|..] == name[|name| - |JsSuffix|..];
      if |name| >= |MinJsSuffix| {
        assert p[|p| - |MinJsSuffix|..] == name[|name| - |MinJsSuffix|..];
      } else {
        // the separator falls inside the last seven characters of the path
        assert p[|p| - |name| - 1] == '/';
        if |p| >= |MinJsSuffix| {
          assert p[|p| - |MinJsSuffix|..][|MinJsSuffix| - |name| - 1] == '/';
        }
      }
    } else if |name| >= |JsSuffix| {
      assert p[|p| - |JsSuffix|..] == name[|name| - |JsSuffix|..];
    } else {
      assert p[|p| - |name| - 1] == '/';
      if |p| >= |JsSuffix| {
        assert p[|p| - |JsSuffix|..][|JsSuffix| - |name| - 1] == '/';
      }
    }
  }

  // ---------------------------------------------------------------------
  // The walk minifies exactly the eligible files, in order
  // ---------------------------------------------------------------------

  /** A walk processed a prefix of `files` in order, one record and the
      writes of each, and all of them when it was not stopped. */
  predicate Follows(w: Walk, files: seq<string>, transform: string -> Result<string, JsError>,
                    write: (string, string) -> Option<JsError>)
  {
    && |w.results| <= |files|
    && (w.aborted.None? ==> |w.results| == |files|)
    && (forall i :: 0 <= i < |w.results| ==> w.results[i] == FileResultOf(files[i], transform, write))
    && w.writes == WritesFor(files[..|w.results|], transform)
  }

  /** A completed walk followed by another walk follows the two file lists one
      after the other. */
  lemma FollowsConcat(head: Walk, rest: Walk, hereFiles: seq<string>, restFiles: seq<string>,
                      transform: string -> Result<string, JsError>, write: (string, string) -> Option<JsError>)
    requires head.aborted.None? && Follows(head, hereFiles, transform, write)
    requires Follows(rest, restFiles, transform, write)
    ensures Follows(Walk(head.writes + rest.writes, head.results + rest.results, rest.aborted),
                    hereFiles + restFiles, transform, write)
  {
    var w := Walk(head.writes + rest.writes, head.results + rest.results, rest.aborted);
    var files := hereFiles + restFiles;
    assert hereFiles[..|head.results|] == hereFiles;
    assert files[..|w.results|] == hereFiles + restFiles[..|rest.results|];
    WritesForAppend(hereFiles, restFiles[..|rest.results|], transform);
  }

  /** A stopped walk follows any extension of the file list it follows. */
  lemma FollowsExtend(w: Walk, hereFiles: seq<string>, restFiles: seq<string>,
                      transform: string -> Result<string, JsError>, write: (string, string) -> Option<JsError>)
    requires w.aborted.Some? && Follows(w, hereFiles, transform, write)
    ensures Follows(w, hereFiles + restFiles, transform, write)
  {
    assert (hereFiles + restFiles)[..|w.results|] == hereFiles[..|w.results|];
  }

  /** One entry of the walk processes that entry's eligible files in order;
      it completes exactly when every directory below it can be read. */
  lemma {:induction false} WalkEntryFollows(dir: string, e: Entry,
                                            transform: string -> Result<string, JsError>,
                                            write: (string, string) -> Option<JsError>)
    ensures var w := WalkEntry(dir, e, transform, write);
            && (w.aborted.None? <==> EntryReadable(e))
            && w.aborted == EntryReadError(e)
            && Follows(w, EntryFiles(dir, e), transform, write)
            && |w.results| == |EntryFilesBeforeAbort(dir, e)|
    decreases e
  {
    match e {
      case File(name) =>
        var w := WalkEntry(dir, e, transform, write);
        var files := EntryFiles(dir, e);
        assert files[..|w.results|] == files;
        assert WritesFor(files, transform) == w.writes by {
          if files != [] {
            assert files[1..] == [];
          }
        }
      case Dir(name, Success(children)) =>
        assert children < e.listing;
        WalkFollowsEligibleFiles(JoinPath(dir, name), children, transform, write);
      case Dir(_, Failure(_)) =>
      case Other(_) =>
    }
  }

  /** The walk processes the eligible files in order, one record each; it
      completes exactly when every directory can be read, and otherwise
      stops with the error of the first unreadable directory, after exactly
      the files met before it. The writes are those of the processed files,
      in order. */
  lemma {:induction false} WalkFollowsEligibleFiles(dir: string, entries: Listing,
                                                    transform: string -> Result<string, JsError>,
                                                    write: (string, string) -> Option<JsError>)
    ensures var w := WalkEntries(dir, entries, transform, write);
            && (w.aborted.None? <==> AllReadable(entries))
            && w.aborted == FirstReadError(entries)
            && Follows(w, EligibleFiles(dir, entries), transform, write)
            && |w.results| == |FilesBeforeAbort(dir, entries)|
    decreases entries
  {
    if entries != End {
      var head := WalkEntry(dir, entries.entry, transform, write);
      var hereFiles := EntryFiles(dir, entries.entry);
      var restFiles := EligibleFiles(dir, entries.more);
      WalkEntryFollows(dir, entries.entry, transform, write);
      if head.aborted.Some? {
        FollowsExtend(head, hereFiles, restFiles, transform, write);
      } else {
        WalkFollowsEligibleFiles(dir, entries.more, transform, write);
        FollowsConcat(head, WalkEntries(dir, entries.more, transform, write), hereFiles, restFiles, transform, write);
      }
    }
  }

  /** The walk writes the outputs of a prefix of the eligible files, in
      order: those met before the first unreadable directory, which are all
      of them when every directory can be read. */
  lemma WalkWritesEligiblePrefix(dir: string, entries: Listing,
                                 transform: string -> Result<string, JsError>,
                                 write: (string, string) -> Option<JsError>)
    ensures exists n :: 0 <= n <= |EligibleFiles(dir, entries)| &&
              WalkEntries(dir, entries, transform, write).writes == WritesFor(EligibleFiles(dir, entries)[..n], transform)
    ensures AllReadable(entries) ==>
              WalkEntries(dir, entries, transform, write).writes == WritesFor(EligibleFiles(dir, entries), transform)
    ensures WalkEntries(dir, entries, transform, write).writes == WritesFor(FilesBeforeAbort(dir, entries), transform)
  {
    var w := WalkEntries(dir, entries, transform, write);
    var files := EligibleFiles(dir, entries);
    WalkFollowsEligibleFiles(dir, entries, transform, write);
    FilesBeforeAbortPrefix(dir, entries);
    var n := |w.results|;
    assert 0 <= n <= |files| && w.writes == WritesFor(files[..n], transform);
    if AllReadable(entries) {
      assert files[..n] == files;
    }
  }

  // ---------------------------------------------------------------------
  // Every eligible file once
  // ---------------------------------------------------------------------

  /** The names of the entries of one listing. */
  function NamesOf(l: Listing): set<string>
  {
    if l == End then {} else {l.entry.name} + NamesOf(l.more)
  }

  /** What a real file system guarantees of an entry: its name holds no
      separator, and below it every listing is well named. */
  predicate EntryWellNamed(e: Entry)
    decreases e
  {
    && '/' !in e.name
    && match e
       case Dir(_, Success(children)) => assert children < e.listing; WellNamed(children)
       case _ => true
  }

  /** What a real file system guarantees of a listing: no two entries share
      a name, and every entry is well named. */
  predicate WellNamed(l: Listing)
    decreases l
  {
    l == End ||
    (&& EntryWellNamed(l.entry)
     && l.entry.name !in NamesOf(l.more)
     && WellNamed(l.more))
  }

  /** The first path segment of `s`: everything before its first separator. */
  function Segment(s: string): (seg: string)
    ensures '/' !in seg
    ensures |seg| <= |s| && s[..|seg|] == seg
  {
    if s == [] || s[0] == '/' then [] else [s[0]] + Segment(s[1..])
  }

  lemma {:induction false} SegmentOfName(name: string, tail: string)
    requires '/' !in name
    requires tail == [] || tail[0] == '/'
    ensures Segment(name + tail) == name
  {
    if name != [] {
      assert (name + tail)[1..] == name[1..] + tail;
      assert name[0] in name;
      SegmentOfName(name[1..], tail);
    } else {
      assert name + tail == tail;
    }
  }

  predicate Distinct(s: seq<string>)
  {
    forall i, j :: 0 <= i < j < |s| ==> s[i] != s[j]
  }

  lemma DistinctAppend(a: seq<string>, b: seq<string>)
    requires Distinct(a) && Distinct(b)
    requires forall p :: p in a ==> p !in b
    ensures Distinct(a + b)
  {
    forall i, j | 0 <= i < j < |a + b|
      ensures (a + b)[i] != (a + b)[j]
    {
      if i < |a| && j >= |a| {
        assert (a + b)[i] in a && (a + b)[j] == b[j - |a|];
      }
    }
  }

  /** Every file an entry of `dir` stands for lies inside `dir`, under the
      entry's own name. */
  lemma {:induction false} EntryFilesUnderName(dir: string, e: Entry)
    requires EntryWellNamed(e)
    ensures forall p :: p in EntryFiles(dir, e) ==>
              && |dir| + 1 <= |p| && p[..|dir| + 1] == dir + "/"
              && Segment(p[|dir| + 1..]) == e.name
    decreases e, 0
  {
    match e {
      case File(name) =>
        if IsEligibleName(name) {
          JoinedNameIsSegment(dir, name, []);
          assert JoinPath(dir, name) + [] == JoinPath(dir, name);
        }
      case Dir(name, Success(children)) =>
        assert children < e.listing;
        SubDirFilesUnderName(dir, name, children);
      case Dir(_, Failure(_)) =>
      case Other(_) =>
    }
  }

  /** Every file found in a readable sub-directory `name` of `dir` lies
      inside `dir`, under `name`. */
  lemma {:induction false} SubDirFilesUnderName(dir: string, name: string, children: Listing)
    requires '/' !in name && WellNamed(children)
    ensures forall p :: p in EligibleFiles(JoinPath(dir, name), children) ==>
              && |dir| + 1 <= |p| && p[..|dir| + 1] == dir + "/"
              && Segment(p[|dir| + 1..]) == name
    decreases children, 1
  {
    var sub := JoinPath(dir, name);
    FilesInsideDir(sub, children);
    forall p | p in EligibleFiles(sub, children)
      ensures |dir| + 1 <= |p| && p[..|dir| + 1] == dir + "/"
      ensures Segment(p[|dir| + 1..]) == name
    {
      PathBelowSubDir(dir, name, p);
    }
  }

  /** A path inside `dir/name` lies inside `dir`, under `name`. */
  lemma PathBelowSubDir(dir: string, name: string, p: string)
    requires '/' !in name
    requires |JoinPath(dir, name)| + 1 <= |p| && p[..|JoinPath(dir, name)| + 1] == JoinPath(dir, name) + "/"
    ensures |dir| + 1 <= |p| && p[..|dir| + 1] == dir + "/"
    ensures Segment(p[|dir| + 1..]) == name
  {
    var sub := JoinPath(dir, name);
    var tail := p[|sub|..];
    assert p == sub + tail by {
      assert p[..|sub|] == p[..|sub| + 1][..|sub|];
    }
    assert tail[0] == p[..|sub| + 1][|sub|];
    JoinedNameIsSegment(dir, name, tail);
  }

  /** A path `dir/name` followed by nothing or by a further `/...` has `name`
      as its first segment below `dir`. */
  lemma JoinedNameIsSegment(dir: string, name: string, tail: string)
    requires '/' !in name
    requires tail == [] || tail[0] == '/'
    ensures var p := JoinPath(dir, name) + tail;
            && |dir| + 1 <= |p| && p[..|dir| + 1] == dir + "/"
            && Segment(p[|dir| + 1..]) == name
  {
    var p := JoinPath(dir, name) + tail;
    assert p[|dir| + 1..] == name + tail;
    SegmentOfName(name, tail);
  }

  /** Every file found under `dir` lies inside `dir`, and its first segment
      below `dir` names an entry of the listing. */
  lemma {:induction false} FilesInsideDir(dir: string, l: Listing)
    requires WellNamed(l)
    ensures forall p :: p in EligibleFiles(dir, l) ==>
              && |dir| + 1 <= |p| && p[..|dir| + 1] == dir + "/"
              && Segment(p[|dir| + 1..]) in NamesOf(l)
    decreases l, 0
  {
    if l != End {
      EntryFilesUnderName(dir, l.entry);
      FilesInsideDir(dir, l.more);
    }
  }

  /** On a well-named tree an entry stands for no file twice. */
  lemma {:induction false} EntryFilesDistinct(dir: string, e: Entry)
    requires EntryWellNamed(e)
    ensures Distinct(EntryFiles(dir, e))
    decreases e
  {
    match e {
      case Dir(name, Success(children)) =>
        assert children < e.listing;
        EligibleFilesDistinct(JoinPath(dir, name), children);
      case _ =>
    }
  }

  /** On a well-named tree the walk's file list names every eligible file
      once: no path appears twice, however deep the tree. */
  lemma {:induction false} EligibleFilesDistinct(dir: string, l: Listing)
    requires WellNamed(l)
    ensures Distinct(EligibleFiles(dir, l))
    decreases l
  {
    if l != End {
      var here := EntryFiles(dir, l.entry);
      var rest := EligibleFiles(dir, l.more);
      EntryFilesDistinct(dir, l.entry);
      EligibleFilesDistinct(dir, l.more);
      EntryFilesUnderName(dir, l.entry);
      FilesInsideDir(dir, l.more);
      DistinctAppend(here, rest);
    }
  }

  // ---------------------------------------------------------------------
  // Examples
  // ---------------------------------------------------------------------

  lemma ExampleNames()
    ensures IsEligibleName("a.js") && IsEligibleName("c.js")
    ensures !IsEligibleName("a.min.js") && !IsEligibleName("notes.txt")
  {
    assert "a.js"[1..] == JsSuffix;
    assert "c.js"[1..] == JsSuffix;
    assert "a.min.js"[1..] == MinJsSuffix;
    assert "notes.txt"[6..] != JsSuffix by {
      assert "notes.txt"[6] != JsSuffix[0];
    }
  }

  lemma ExampleSubFolder()
    ensures EligibleFiles("d", Next(Dir("sub", Success(Next(File("c.js"), End))), Next(Other("b.js"), End)))
            == ["d/sub/c.js"]
  {
    ExampleNames();
    assert JoinPath("d", "sub") == "d/sub";
    assert JoinPath("d/sub", "c.js") == "d/sub/c.js";
    assert EntryFiles("d/sub", File("c.js")) == ["d/sub/c.js"];
    assert EligibleFiles("d/sub", Next(File("c.js"), End)) == ["d/sub/c.js"] + [];
    assert EntryFiles("d", Other("b.js")) == [];
    assert EligibleFiles("d", Next(Other("b.js"), End)) == [];
  }

  /** A folder `d` holding `a.js`, its earlier output `a.min.js`, a text file,
      a sub-directory with `c.js`, and a link named `b.js`: only `a.js` and
      `sub/c.js` are minified. */
  lemma ExampleEligibleFiles()
    ensures EligibleFiles("d", Next(File("a.js"), Next(File("a.min.js"), Next(File("notes.txt"),
              Next(Dir("sub", Success(Next(File("c.js"), End))), Next(Other("b.js"), End))))))
            == ["d/a.js", "d/sub/c.js"]
  {
    ExampleNames();
    ExampleSubFolder();
    var l4 := Next(Dir("sub", Success(Next(File("c.js"), End))), Next(Other("b.js"), End));
    assert EntryFiles("d", File("notes.txt")) == [];
    assert EntryFiles("d", File("a.min.js")) == [];
    assert EligibleFiles("d", Next(File("notes.txt"), l4)) == ["d/sub/c.js"];
    assert EligibleFiles("d", Next(File("a.min.js"), Next(File("notes.txt"), l4))) == ["d/sub/c.js"];
    assert JoinPath("d", "a.js") == "d/a.js";
    assert EntryFiles("d", File("a.js")) == ["d/a.js"];
  }

  lemma ExampleOutputPath()
    ensures MinifiedPath(JoinPath("d", "a.js")) == "d/a.min.js"
  {
    assert JoinPath("d", "a.js") == "d/a.js";
    assert "d/a.js"[3..] == JsSuffix;
    assert "d/a.js"[..3] + MinJsSuffix == "d/a.min.js";
  }

  /** A sub-directory that cannot be read stops the walk: the file listed
      before it has already been written, the file after it never is. */
  lemma ExampleUnreadableStopsWalk(transform: string -> Result<string, JsError>,
                                   write: (string, string) -> Option<JsError>)
    requires transform(JoinPath("d", "a.js")) == Success("x")
    ensures var err := JsError("Error", "EACCES: permission denied");
            var w := WalkEntries("d", Next(File("a.js"), Next(Dir("locked", Failure(err)), Next(File("z.js"), End))),
                                 transform, write);
            && w.aborted == Some(err)
            && w.writes == [Write("d/a.min.js", "x\n")]
  {
    ExampleNames();
    ExampleOutputPath();
    var p := JoinPath("d", "a.js");
    assert transform(p).value + "\n" == "x\n";
    assert WriteOf(p, transform) == [Write(MinifiedPath(p), transform(p).value + "\n")];
  }

  /** An unreadable directory deep in the tree stops the walk too, but only
      after the files listed before it at that depth: in `d/sub`, `x.js` is
      written before `locked` rejects, and `d/z.js` is never reached. */
  lemma ExampleNestedUnreadable(transform: string -> Result<string, JsError>,
                                write: (string, string) -> Option<JsError>)
    requires transform("d/sub/x.js") == Success("y")
    ensures var err := JsError("Error", "EACCES: permission denied");
            var sub := Dir("sub", Success(Next(File("x.js"), Next(Dir("locked", Failure(err)), End))));
            var w := WalkEntries("d", Next(sub, Next(File("z.js"), End)), transform, write);
            && w.aborted == Some(err)
            && w.writes == [Write("d/sub/x.min.js", "y\n")]
  {
    var p := JoinPath(JoinPath("d", "sub"), "x.js");
    assert p == "d/sub/x.js";
    assert IsEligibleName("x.js") by {
      assert "x.js"[1..] == JsSuffix;
      assert "x.js"[0..] != MinJsSuffix;
    }
    assert MinifiedPath(p) == "d/sub/x.min.js" by {
      assert p[7..] == JsSuffix;
      assert p[..7] + MinJsSuffix == "d/sub/x.min.js";
    }
    assert transform(p).value + "\n" == "y\n";
    assert WriteOf(p, transform) == [Write(MinifiedPath(p), transform(p).value + "\n")];
  }
}

=== FILE: js.dfy ===
/** The small pieces of JavaScript runtime behaviour the program relies on:
    error objects and their string conversion, and the decimal rendering of
    a count inside a template string. */
module Js {

  /** A JavaScript `Error` object, reduced to the two properties the program reads. */
  datatype JsError = JsError(name: string, message: string)

  /** `err.toString()` as `Error.prototype.toString` defines it
      (section 20.5.3.4 of ECMA-262): the name, the message, or both joined by ": ". */
  function ErrorToString(e: JsError): (r: string)
    ensures |e.message| <= |r| && r[|r| - |e.message|..] == e.message
    ensures |e.name| <= |r| && r[..|e.name|] == e.name
    ensures e.name != "" && e.message != "" ==> |r| == |e.name| + 2 + |e.message| && r[|e.name|..|e.name| + 2] == ": "
    ensures e.name == "" ==> r == e.message
    ensures e.message == "" ==> r == e.name
  {
    if e.name == "" then e.message
    else if e.message == "" then e.name
    else e.name + ": " + e.message
  }

  /** The character of one decimal digit. */
  function DigitChar(d: nat): (c: char)
    requires d < 10
    ensures '0' <= c <= '9'
  {
    ('0' as int + d) as char
  }

  /** The value of one decimal digit character. */
  function DigitValue(c: char): nat
    requires '0' <= c <= '9'
  {
    (c as int - '0' as int) as nat
  }

  /** `${n}` for a non-negative integer count: its shortest decimal numeral. */
  function NatToString(n: nat): (r: string)
    ensures |r| >= 1
    ensures forall k :: 0 <= k < |r| ==> '0' <= r[k] <= '9'
    ensures |r| > 1 ==> r[0] != '0'
  {
    if n < 10 then [DigitChar(n)] else NatToString(n / 10) + [DigitChar(n % 10)]
  }

  /** Reads a string of decimal digits back as a number. */
  function ParseDecimal(s: string): nat
    requires forall k :: 0 <= k < |s| ==> '0' <= s[k] <= '9'
  {
    if |s| == 0 then 0 else 10 * ParseDecimal(s[..|s| - 1]) + DigitValue(s[|s| - 1])
  }

  /** The rendered count reads back as the same count, so the numbers the
      folder report prints are the list lengths themselves. */
  lemma {:induction false} NatToStringRoundTrip(n: nat)
    ensures ParseDecimal(NatToString(n)) == n
  {
    if n >= 10 {
      NatToStringRoundTrip(n / 10);
      var r := NatToString(n);
      assert r[..|r| - 1] == NatToString(n / 10);
      assert DigitValue(r[|r| - 1]) == n % 10;
    }
  }
}

=== FILE: normalizer.dfy ===
/** The `TemplateLiteral` visitor: for every literal segment (quasi) of a
    template literal it trims the whitespace run before a `${` and after a
    `}` when that run holds a newline, carriage return or tab, and then
    collapses every remaining whitespace run to one space. The `raw` and the
    `cooked` text of each quasi are rewritten separately, by the same rule. */
module Normalizer {
  import opened Whitespace

  /** One literal segment of a template literal: its source text and its
      escape-processed value. */
  datatype Quasi = Quasi(raw: string, cooked: string)

  /** The rewrite of one segment text, given whether the segment is the
      first and whether it is the last of its template literal. */
  function NormalizeText(s: string, isFirst: bool, isLast: bool): (r: string)
    ensures Collapsed(r)
    ensures NonWs(r) == NonWs(s)
    ensures |r| <= |s|
    ensures isFirst && isLast ==> r == Collapse(s)
    ensures KeepsBoundaries(s, r, isFirst, isLast)
    ensures NonWs(s) != [] ==>
              && KeptStart(s, isFirst) < KeptEnd(s, isLast)
              && r == Collapse(s[KeptStart(s, isFirst)..KeptEnd(s, isLast)])
    ensures AllWs(s) ==>
              r == if s == [] || (HasBreak(s) && !(isFirst && isLast)) then [] else [' ']
  {
    var u := TrimBoundaries(s, isFirst, isLast);
    CollapseOfAllWs(s);
    CollapseKeepsBoundaries(s, u, isFirst, isLast);
    Collapse(u)
  }

  /** Collapsing keeps whether the text starts and ends with whitespace, so
      it keeps the boundaries the trims leave. */
  lemma CollapseKeepsBoundaries(s: string, u: string, isFirst: bool, isLast: bool)
    requires NonWs(u) == NonWs(s)
    requires KeepsBoundaries(s, u, isFirst, isLast)
    ensures KeepsBoundaries(s, Collapse(u), isFirst, isLast)
  {
  }

  /** The two trims of run.js, in their order: the trailing run unless the
      segment is last, then the leading run unless it is first. Only
      whitespace goes; on text with a non-whitespace character what is left
      is the slice between the two cuts and has the boundaries that
      `KeepsBoundaries` describes; text made only of whitespace is emptied
      when a trim fires on a break and is otherwise kept whole. */
  function TrimBoundaries(s: string, isFirst: bool, isLast: bool): (u: string)
    ensures NonWs(u) == NonWs(s)
    ensures |u| <= |s|
    ensures isFirst && isLast ==> u == s
    ensures KeepsBoundaries(s, u, isFirst, isLast)
    ensures NonWs(s) != [] ==>
              KeptStart(s, isFirst) < KeptEnd(s, isLast) && u == s[KeptStart(s, isFirst)..KeptEnd(s, isLast)]
    ensures AllWs(s) ==> u == if HasBreak(s) && !(isFirst && isLast) then [] else s
  {
    var t := if isLast then s else TrimEnd(s);
    var u := if isFirst then t else TrimStart(t);
    TrimEndKeepsNonWs(s);
    TrimStartKeepsNonWs(t);
    TrimsKeepBoundaries(s, isFirst, isLast, t, u);
    TrimsKeepMiddle(s, isFirst, isLast, t, u);
    TrimsOfAllWs(s, isFirst, isLast, t, u);
    u
  }

  /** Where the part of `s` that the leading trim keeps begins: after the
      leading whitespace run when the segment is not the first and that run
      holds a break character, and at the start otherwise. */
  function KeptStart(s: string, isFirst: bool): (a: nat)
    ensures a <= |s|
  {
    if !isFirst && HasBreak(s[..LeadingWsLen(s)]) then LeadingWsLen(s) else 0
  }

  /** Where the part of `s` that the trailing trim keeps ends: before the
      trailing whitespace run when the segment is not the last and that run
      holds a break character, and at the end otherwise. */
  function KeptEnd(s: string, isLast: bool): (b: nat)
    ensures b <= |s|
  {
    if !isLast && HasBreak(s[|s| - TrailingWsLen(s)..]) then |s| - TrailingWsLen(s) else |s|
  }

  /** On text with a non-whitespace character the two trims act on the two
      boundary runs of `s` independently: what is left is the slice of `s`
      between the two cuts, each decided by its own run. */
  lemma TrimsKeepMiddle(s: string, isFirst: bool, isLast: bool, t: string, u: string)
    requires t == (if isLast then s else TrimEnd(s))
    requires u == (if isFirst then t else TrimStart(t))
    ensures NonWs(s) != [] ==>
              KeptStart(s, isFirst) < KeptEnd(s, isLast) && u == s[KeptStart(s, isFirst)..KeptEnd(s, isLast)]
  {
    if NonWs(s) != [] {
      RunsShortOfLength(s);
      RunsApart(s);
      var n, b := LeadingWsLen(s), KeptEnd(s, isLast);
      TrimEndByTrailingRun(s, TrailingWsLen(s));
      assert t == s[..b];
      TrimEndKeepsHead(s, isLast, t);
      if !isFirst {
        TrimStartByLeadingRun(t, n);
        assert t[n..] == s[n..b];
      }
    }
  }

  /** A segment made only of whitespace is emptied when a trim at its
      position fires on a break, and otherwise kept whole. */
  lemma TrimsOfAllWs(s: string, isFirst: bool, isLast: bool, t: string, u: string)
    requires t == (if isLast then s else TrimEnd(s))
    requires u == (if isFirst then t else TrimStart(t))
    ensures AllWs(s) ==> u == if HasBreak(s) && !(isFirst && isLast) then [] else s
  {
    if AllWs(s) {
      assert s[|s| - |s|..] == s;
      TrimEndByTrailingRun(s, |s|);
      assert t == if !isLast && HasBreak(s) then [] else s;
      if t == [] {
        TrimStartByLeadingRun([], 0);
      } else if !isFirst {
        assert s[..|s|] == s;
        TrimStartByLeadingRun(s, |s|);
      }
    }
  }

  /** Where the rewrite of a segment text with some non-whitespace character
      starts and ends. It ends with whitespace exactly when `s` has a
      trailing whitespace run that the trailing trim leaves, because the
      segment is the last or the run holds no break character. Likewise it
      starts with whitespace exactly when `s` has a leading run that the
      leading trim leaves, because the segment is the first or the run holds
      no break character. */
  predicate KeepsBoundaries(s: string, r: string, isFirst: bool, isLast: bool)
  {
    NonWs(s) != [] ==>
      && |r| > 0
      && (IsWs(r[|r| - 1]) <==> TrailingWsLen(s) > 0 && (isLast || !HasBreak(s[|s| - TrailingWsLen(s)..])))
      && (IsWs(r[0]) <==> LeadingWsLen(s) > 0 && (isFirst || !HasBreak(s[..LeadingWsLen(s)])))
  }

  /** Text with a non-whitespace character is not all whitespace, so both of
      its boundary runs stop short of its length. */
  lemma RunsShortOfLength(s: string)
    requires NonWs(s) != []
    ensures LeadingWsLen(s) < |s| && TrailingWsLen(s) < |s|
  {
    if LeadingWsLen(s) == |s| {
      assert s[..|s|] == s;
      NonWsOfAllWs(s);
    }
    if TrailingWsLen(s) == |s| {
      assert s[|s| - |s|..] == s;
      NonWsOfAllWs(s);
    }
  }

  /** The two trims, before the collapse, already leave the boundaries that
      `KeepsBoundaries` describes. */
  lemma TrimsKeepBoundaries(s: string, isFirst: bool, isLast: bool, t: string, u: string)
    requires t == (if isLast then s else TrimEnd(s))
    requires u == (if isFirst then t else TrimStart(t))
    ensures KeepsBoundaries(s, u, isFirst, isLast)
  {
    if NonWs(s) != [] {
      RunsShortOfLength(s);
      TrimEndKeepsHead(s, isLast, t);
      TrimEndDecidesLast(s, isLast, t);
      TrimStartKeepsLast(t, isFirst, u);
      TrimStartDecidesFirst(t, isFirst, u);
    }
  }

  /** The trailing trim of a text with a non-whitespace character leaves its
      leading run and its first character alone. */
  lemma TrimEndKeepsHead(s: string, isLast: bool, t: string)
    requires LeadingWsLen(s) < |s| && TrailingWsLen(s) < |s|
    requires t == (if isLast then s else TrimEnd(s))
    ensures LeadingWsLen(t) == LeadingWsLen(s) < |t|
    ensures t[..LeadingWsLen(s)] == s[..LeadingWsLen(s)]
    ensures IsWs(t[0]) <==> LeadingWsLen(s) > 0
  {
    var m := TrailingWsLen(s);
    TrimEndByTrailingRun(s, m);
    StartWsIffLeadingRun(s);
    if !isLast && HasBreak(s[|s| - m..]) {
      assert t == s[..|s| - m];
      CutBoundaries(s, |s| - m);
    } else {
      assert t == s;
    }
  }

  /** The trailing trim of a text with a non-whitespace character leaves it
      ending in whitespace exactly when it has a trailing run that the trim
      leaves. */
  lemma TrimEndDecidesLast(s: string, isLast: bool, t: string)
    requires TrailingWsLen(s) < |s|
    requires t == (if isLast then s else TrimEnd(s))
    ensures |t| > 0
    ensures IsWs(t[|t| - 1]) <==> TrailingWsLen(s) > 0 && (isLast || !HasBreak(s[|s| - TrailingWsLen(s)..]))
  {
    var k := |s| - TrailingWsLen(s);
    TrimEndByTrailingRun(s, TrailingWsLen(s));
    if !isLast && HasBreak(s[k..]) {
      assert t[k - 1] == s[k - 1];
    } else {
      EndWsIffTrailingRun(s);
    }
  }

  /** Cutting the trailing run off text with a non-whitespace character
      leaves text that ends in a character that is not whitespace, with the
      same leading run and first character. */
  lemma CutBoundaries(s: string, k: nat)
    requires LeadingWsLen(s) < |s| && TrailingWsLen(s) < |s|
    requires k == |s| - TrailingWsLen(s)
    ensures LeadingWsLen(s[..k]) == LeadingWsLen(s) < k
    ensures s[..k][..LeadingWsLen(s)] == s[..LeadingWsLen(s)]
    ensures s[..k][0] == s[0]
    ensures !IsWs(s[..k][k - 1])
  {
    RunsApart(s);
    CutKeepsHead(s, k);
    assert s[..k][k - 1] == s[k - 1];
  }

  /** A text ends in whitespace exactly when its trailing run is non-empty. */
  lemma EndWsIffTrailingRun(s: string)
    requires 0 < |s|
    ensures IsWs(s[|s| - 1]) <==> TrailingWsLen(s) > 0
  {
    var m := TrailingWsLen(s);
    if m > 0 {
      assert s[|s| - m..][m - 1] == s[|s| - 1];
    }
  }

  /** A text starts with whitespace exactly when its leading run is non-empty. */
  lemma StartWsIffLeadingRun(s: string)
    requires 0 < |s|
    ensures IsWs(s[0]) <==> LeadingWsLen(s) > 0
  {
    var n := LeadingWsLen(s);
    if n > 0 {
      assert s[..n][0] == s[0];
    }
  }

  /** A prefix that reaches past the leading run has the same leading run. */
  lemma CutKeepsHead(s: string, k: nat)
    requires LeadingWsLen(s) < k <= |s|
    ensures LeadingWsLen(s[..k]) == LeadingWsLen(s)
    ensures s[..k][..LeadingWsLen(s)] == s[..LeadingWsLen(s)]
    ensures s[..k][0] == s[0]
  {
    var n := LeadingWsLen(s);
    PrefixKeepsHead(s, k, n);
    LeadingWsLenIs(s[..k], n);
  }

  /** The leading trim of a text with a non-whitespace character keeps its
      last character. */
  lemma TrimStartKeepsLast(t: string, isFirst: bool, u: string)
    requires LeadingWsLen(t) < |t|
    requires u == (if isFirst then t else TrimStart(t))
    ensures |u| > 0 && u[|u| - 1] == t[|t| - 1]
  {
    var n := LeadingWsLen(t);
    TrimStartByLeadingRun(t, n);
    if !isFirst && HasBreak(t[..n]) {
      assert u == t[n..];
      assert u[|u| - 1] == t[|t| - 1];
    } else {
      assert u == t;
    }
  }

  /** The leading trim of a text with a non-whitespace character leaves it
      starting with whitespace exactly when it has a leading run that the
      trim leaves. */
  lemma TrimStartDecidesFirst(t: string, isFirst: bool, u: string)
    requires LeadingWsLen(t) < |t|
    requires u == (if isFirst then t else TrimStart(t))
    ensures |u| > 0
    ensures IsWs(u[0]) <==> LeadingWsLen(t) > 0 && (isFirst || !HasBreak(t[..LeadingWsLen(t)]))
  {
    var n := LeadingWsLen(t);
    TrimStartByLeadingRun(t, n);
    if !isFirst && HasBreak(t[..n]) {
      assert u == t[n..];
    } else {
      assert u == t;
      StartWsIffLeadingRun(t);
    }
  }

  /** In text with a non-whitespace character, the first such character lies
      before the trailing whitespace run. */
  lemma RunsApart(s: string)
    requires LeadingWsLen(s) < |s|
    ensures LeadingWsLen(s) < |s| - TrailingWsLen(s)
  {
    var m := TrailingWsLen(s);
    var tail := s[|s| - m..];
    forall k | |s| - m <= k < |s|
      ensures IsWs(s[k])
    {
      assert s[k] == tail[k - (|s| - m)];
    }
  }

  /** A prefix of `s` that reaches past index `n` agrees with `s` up to and
      including `n`. */
  lemma PrefixKeepsHead(s: string, k: nat, n: nat)
    requires n < k <= |s|
    ensures s[..k][..n] == s[..n] && s[..k][n] == s[n]
  {
  }

  /** Neither trim can fire on text without a break character. */
  lemma TrimsFixBreakFree(s: string)
    requires !HasBreak(s)
    ensures TrimEnd(s) == s && TrimStart(s) == s
  {
    var k := |s| - TrailingWsLen(s);
    if HasBreak(s[k..]) {
      BreakInWiderWindow(s, 0, |s|, k, |s|);
    }
    var n := LeadingWsLen(s);
    if HasBreak(s[..n]) {
      BreakInWiderWindow(s, 0, |s|, 0, n);
    }
  }

  /** Normalised text is left alone by the rewrite, whatever position its
      segment has: no break character survives, so neither trim fires, and
      collapsed text does not collapse further. */
  lemma NormalizeFixesCollapsed(s: string, isFirst: bool, isLast: bool)
    requires Collapsed(s)
    ensures NormalizeText(s, isFirst, isLast) == s
  {
    CollapsedHasNoBreak(s);
    TrimsFixBreakFree(s);
    CollapseFixpoint(s);
  }

  /** Rewriting a segment twice gives what rewriting it once gives. */
  lemma NormalizeTextIdempotent(s: string, isFirst: bool, isLast: bool)
    ensures var r := NormalizeText(s, isFirst, isLast);
            NormalizeText(r, isFirst, isLast) == r
  {
    NormalizeFixesCollapsed(NormalizeText(s, isFirst, isLast), isFirst, isLast);
  }

  /** The trailing trim, told by runs: when the last `m` characters of `s`
      are its maximal trailing whitespace run, that run goes exactly when it
      holds a break character. */
  lemma TrimEndByTrailingRun(s: string, m: nat)
    requires m <= |s| && AllWs(s[|s| - m..]) && (m < |s| ==> !IsWs(s[|s| - m - 1]))
    ensures TrimEnd(s) == if HasBreak(s[|s| - m..]) then s[..|s| - m] else s
  {
    TrailingWsLenIs(s, m);
  }

  /** The leading trim, told by runs: when the first `m` characters of `s`
      are its maximal leading whitespace run, that run goes exactly when it
      holds a break character. */
  lemma TrimStartByLeadingRun(s: string, m: nat)
    requires m <= |s| && AllWs(s[..m]) && (m < |s| ==> !IsWs(s[m]))
    ensures TrimStart(s) == if HasBreak(s[..m]) then s[m..] else s
  {
    LeadingWsLenIs(s, m);
  }

  /** A segment that is not the last and whose trailing whitespace run holds
      a break character comes out without any trailing whitespace. */
  lemma NonLastLosesBreakingTail(s: string, isFirst: bool)
    requires HasBreak(s[|s| - TrailingWsLen(s)..])
    ensures var r := NormalizeText(s, isFirst, false);
            r == [] || !IsWs(r[|r| - 1])
  {
    // with a non-whitespace character, `KeepsBoundaries` decides the end;
    // without one, the segment is all whitespace and holds the break
    if NonWs(s) == [] {
      AllWsOfNoNonWs(s);
      assert s[0..|s|] == s;
      BreakInWiderWindow(s, 0, |s|, |s| - TrailingWsLen(s), |s|);
    }
  }

  /** A segment that is not the first and whose leading whitespace run holds
      a break character comes out without any leading whitespace. */
  lemma NonFirstLosesBreakingHead(s: string, isLast: bool)
    requires HasBreak(s[..LeadingWsLen(s)])
    ensures var r := NormalizeText(s, false, isLast);
            r == [] || !IsWs(r[0])
  {
    if NonWs(s) == [] {
      AllWsOfNoNonWs(s);
      BreakInWiderWindow(s, 0, |s|, 0, LeadingWsLen(s));
      assert s[0..|s|] == s;
    }
  }

  /** A segment made only of whitespace, with a break in it, is removed by
      the trailing trim or else by the leading trim. */
  lemma AllBreakingWsVanishes(s: string, isLast: bool)
    requires AllWs(s) && HasBreak(s)
    ensures TrimStart(if isLast then s else TrimEnd(s)) == []
  {
    assert s[..|s|] == s && s[|s| - |s|..] == s;
    TrimStartByLeadingRun(s, |s|);
    if !isLast {
      TrimEndByTrailingRun(s, |s|);
      TrimStartByLeadingRun([], 0);
    }
  }

  // ---------------------------------------------------------------------
  // The whole template literal
  // ---------------------------------------------------------------------

  /** One quasi, rewritten at its position: `raw` and `cooked` by the same rule. */
  function NormalizeQuasi(q: Quasi, isFirst: bool, isLast: bool): Quasi
  {
    Quasi(NormalizeText(q.raw, isFirst, isLast), NormalizeText(q.cooked, isFirst, isLast))
  }

  /** The visitor's `quasis.forEach`: the quasi at index `i` is first when
      `i == 0` and last when `i == |quasis| - 1`. */
  function NormalizeQuasis(quasis: seq<Quasi>): (r: seq<Quasi>)
    ensures |r| == |quasis|
    ensures forall i :: 0 <= i < |r| ==> Collapsed(r[i].raw) && Collapsed(r[i].cooked)
    ensures forall i :: 0 <= i < |r| ==>
              NonWs(r[i].raw) == NonWs(quasis[i].raw) && NonWs(r[i].cooked) == NonWs(quasis[i].cooked)
    ensures |quasis| == 1 ==> r == [Quasi(Collapse(quasis[0].raw), Collapse(quasis[0].cooked))]
    ensures forall i :: 0 <= i < |r| ==>
              && KeepsBoundaries(quasis[i].raw, r[i].raw, i == 0, i == |quasis| - 1)
              && KeepsBoundaries(quasis[i].cooked, r[i].cooked, i == 0, i == |quasis| - 1)
    ensures forall i :: 0 <= i < |r| ==> r[i] == NormalizeQuasi(quasis[i], i == 0, i == |quasis| - 1)
  {
    var r := seq(|quasis|, i requires 0 <= i < |quasis| => NormalizeQuasi(quasis[i], i == 0, i == |quasis| - 1));
    QuasisKeepShape(quasis, r);
    r
  }

  /** Each quasi of the visitor's output has what the rewrite of one segment
      promises, at that quasi's position. */
  lemma QuasisKeepShape(quasis: seq<Quasi>, r: seq<Quasi>)
    requires |r| == |quasis|
    requires forall i :: 0 <= i < |r| ==> r[i] == NormalizeQuasi(quasis[i], i == 0, i == |quasis| - 1)
    ensures forall i :: 0 <= i < |r| ==> Collapsed(r[i].raw) && Collapsed(r[i].cooked)
    ensures forall i :: 0 <= i < |r| ==>
              NonWs(r[i].raw) == NonWs(quasis[i].raw) && NonWs(r[i].cooked) == NonWs(quasis[i].cooked)
    ensures forall i :: 0 <= i < |r| ==>
              && KeepsBoundaries(quasis[i].raw, r[i].raw, i == 0, i == |quasis| - 1)
              && KeepsBoundaries(quasis[i].cooked, r[i].cooked, i == 0, i == |quasis| - 1)
  {
    forall i | 0 <= i < |r|
      ensures Collapsed(r[i].raw) && Collapsed(r[i].cooked)
      ensures NonWs(r[i].raw) == NonWs(quasis[i].raw) && NonWs(r[i].cooked) == NonWs(quasis[i].cooked)
      ensures KeepsBoundaries(quasis[i].raw, r[i].raw, i == 0, i == |quasis| - 1)
      ensures KeepsBoundaries(quasis[i].cooked, r[i].cooked, i == 0, i == |quasis| - 1)
    {
      var q := NormalizeQuasi(quasis[i], i == 0, i == |quasis| - 1);
      assert r[i] == q;
    }
  }

  /** The visitor applied to its own output changes nothing. */
  lemma NormalizeQuasisIdempotent(quasis: seq<Quasi>)
    ensures NormalizeQuasis(NormalizeQuasis(quasis)) == NormalizeQuasis(quasis)
  {
    var r := NormalizeQuasis(quasis);
    forall i | 0 <= i < |r|
      ensures NormalizeQuasis(r)[i] == r[i]
    {
      NormalizeFixesCollapsed(r[i].raw, i == 0, i == |r| - 1);
      NormalizeFixesCollapsed(r[i].cooked, i == 0, i == |r| - 1);
    }
  }

  /** The `raw` text of every result quasi depends only on the `raw` texts of
      the input, and likewise for `cooked`. */
  lemma RawAndCookedIndependent(quasis: seq<Quasi>, other: seq<Quasi>)
    requires |quasis| == |other|
    ensures (forall i :: 0 <= i < |quasis| ==> quasis[i].raw == other[i].raw) ==>
              forall i :: 0 <= i < |quasis| ==> NormalizeQuasis(quasis)[i].raw == NormalizeQuasis(other)[i].raw
    ensures (forall i :: 0 <= i < |quasis| ==> quasis[i].cooked == other[i].cooked) ==>
              forall i :: 0 <= i < |quasis| ==> NormalizeQuasis(quasis)[i].cooked == NormalizeQuasis(other)[i].cooked
  {
    var r, o := NormalizeQuasis(quasis), NormalizeQuasis(other);
    forall i | 0 <= i < |quasis|
      ensures r[i].raw == NormalizeText(quasis[i].raw, i == 0, i == |quasis| - 1)
      ensures o[i].raw == NormalizeText(other[i].raw, i == 0, i == |quasis| - 1)
      ensures r[i].cooked == NormalizeText(quasis[i].cooked, i == 0, i == |quasis| - 1)
      ensures o[i].cooked == NormalizeText(other[i].cooked, i == 0, i == |quasis| - 1)
    {
    }
  }

  /** Two quasis: the first is rewritten as first and not last, the second as
      last and not first. */
  lemma TwoQuasis(a: Quasi, b: Quasi)
    ensures NormalizeQuasis([a, b]) == [NormalizeQuasi(a, true, false), NormalizeQuasi(b, false, true)]
  {
    var r := NormalizeQuasis([a, b]);
    assert r == [r[0], r[1]];
  }

  /** Text without whitespace is already collapsed. */
  lemma WordFixed(w: string)
    requires forall k :: 0 <= k < |w| ==> !IsWs(w[k])
    ensures Collapse(w) == w
  {
    CollapseFixpoint(w);
  }

  /** `Hello\n\t  ${name}\n\tWorld` written over two source lines: both
      boundary runs hold breaks, so both go. */
  lemma HelloWorldExample()
    ensures NormalizeQuasis([Quasi("Hello\n\t  ", "Hello\n\t  "), Quasi("\n\tWorld", "\n\tWorld")])
            == [Quasi("Hello", "Hello"), Quasi("World", "World")]
  {
    TwoQuasis(Quasi("Hello\n\t  ", "Hello\n\t  "), Quasi("\n\tWorld", "\n\tWorld"));
    HelloTail();
    WorldHead();
  }

  lemma HelloTail()
    ensures NormalizeText("Hello\n\t  ", true, false) == "Hello"
  {
    HelloTrimmed();
    var w := "Hello";
    assert !IsWs(w[0]) && !IsWs(w[1]) && !IsWs(w[2]) && !IsWs(w[3]) && !IsWs(w[4]);
    WordFixed(w);
  }

  lemma HelloTrimmed()
    ensures TrimEnd("Hello\n\t  ") == "Hello"
  {
    var first := "Hello\n\t  ";
    assert first[5..] == "\n\t  " && IsBreak(first[5]);
    TrailingWsLenIs(first, 4);
    assert first[..5] == "Hello";
  }

  lemma WorldHead()
    ensures NormalizeText("\n\tWorld", false, true) == "World"
  {
    WorldTrimmed();
    var w := "World";
    assert !IsWs(w[0]) && !IsWs(w[1]) && !IsWs(w[2]) && !IsWs(w[3]) && !IsWs(w[4]);
    WordFixed(w);
  }

  lemma WorldTrimmed()
    ensures TrimStart("\n\tWorld") == "World"
  {
    var last := "\n\tWorld";
    assert last[..2] == "\n\t" && IsBreak(last[0]);
    LeadingWsLenIs(last, 2);
    assert last[2..] == "World";
  }

  /** A line break written as the escape `\n` is two ordinary characters in
      `raw` but a real line feed in `cooked`, so only `cooked` loses it. */
  lemma EscapedBreakKeptInRaw()
    ensures NormalizeQuasis([Quasi("a\\n", "a\n"), Quasi("b", "b")])
            == [Quasi("a\\n", "a"), Quasi("b", "b")]
  {
    TwoQuasis(Quasi("a\\n", "a\n"), Quasi("b", "b"));
    EscapedRaw();
    EscapedCooked();
    PlainLast();
  }

  lemma EscapedRaw()
    ensures NormalizeText("a\\n", true, false) == "a\\n"
  {
    var raw := "a\\n";
    assert !IsWs(raw[0]) && !IsWs(raw[1]) && !IsWs(raw[2]);
    assert raw[|raw|..] == [];
    TrailingWsLenIs(raw, 0);
    WordFixed(raw);
  }

  lemma EscapedCooked()
    ensures NormalizeText("a\n", true, false) == "a"
  {
    var cooked := "a\n";
    assert cooked[1..] == "\n" && IsBreak(cooked[1]);
    TrailingWsLenIs(cooked, 1);
    assert cooked[..1] == "a";
    var w := "a";
    assert !IsWs(w[0]);
    WordFixed(w);
  }

  lemma PlainLast()
    ensures NormalizeText("b", false, true) == "b"
  {
    var b := "b";
    assert b[..0] == [] && !IsWs(b[0]);
    LeadingWsLenIs(b, 0);
    WordFixed(b);
  }

  /** A line break inside a middle segment, away from both of its ends, is
      not trimmed but collapsed to one space. */
  lemma MiddleBreakBecomesSpace()
    ensures NormalizeText("a\nb", false, false) == "a b"
  {
    var s := "a\nb";
    assert !IsWs(s[0]) && !IsWs(s[2]);
    assert NonWs(s) != [] by {
      assert s == [s[0]] + s[1..];
      NonWsAppend([s[0]], s[1..]);
    }
    LeadingWsLenIs(s, 0);
    TrailingWsLenIs(s, 0);
    assert KeptStart(s, false) == 0 && KeptEnd(s, false) == 3;
    assert s[0..3] == s;
    LineBreakCollapses();
  }

  /** The collapse turns the line feed between two letters into one space. */
  lemma LineBreakCollapses()
    ensures Collapse("a\nb") == "a b"
  {
    var s, tail, word := "a\nb", "\nb", "b";
    assert !IsWs(word[0]);
    WordFixed(word);
    assert tail[..1] == "\n" && tail[1..] == word;
    LeadingWsLenIs(tail, 1);
    assert Collapse(tail) == " b";
    assert !IsWs(s[0]) && s[1..] == tail;
  }
}

=== FILE: paths.dfy ===
/** File names and paths: which files the folder walk picks up, and the
    name each minified output is written under. */
module Paths {

  const JsSuffix: string := ".js"
  const MinJsSuffix: string := ".min.js"

  /** `s.endsWith(suffix)`. */
  predicate EndsWith(s: string, suffix: string)
  {
    |suffix| <= |s| && s[|s| - |suffix|..] == suffix
  }

  /** The file test of the folder walk: a `.js` file that is not already a
      `.min.js` output. */
  predicate IsEligibleName(name: string)
  {
    EndsWith(name, JsSuffix) && !EndsWith(name, MinJsSuffix)
  }

  /** `filePath.replace(/\.js$/, '.min.js')`: a trailing `.js` becomes
      `.min.js`; any other path is left as it is. The result is never itself
      eligible, so an output is never picked up as an input. */
  function MinifiedPath(p: string): (r: string)
    ensures EndsWith(p, JsSuffix) ==> EndsWith(r, MinJsSuffix) && r[..|r| - |MinJsSuffix|] == p[..|p| - |JsSuffix|]
    ensures !EndsWith(p, JsSuffix) ==> r == p
    ensures !IsEligibleName(r)
  {
    if EndsWith(p, JsSuffix) then
      var r := p[..|p| - |JsSuffix|] + MinJsSuffix;
      assert r[|r| - |MinJsSuffix|..] == MinJsSuffix;
      assert r[|r| - |JsSuffix|..] == JsSuffix;
      r
    else p
  }

  /** The source path a `.min.js` output was derived from. */
  function SourcePath(m: string): string
  {
    if EndsWith(m, MinJsSuffix) then m[..|m| - |MinJsSuffix|] + JsSuffix else m
  }

  /** Deriving the output name loses nothing: the source path can be read
      back from it. */
  lemma SourcePathRoundTrip(p: string)
    requires EndsWith(p, JsSuffix)
    ensures SourcePath(MinifiedPath(p)) == p
  {
    var r := MinifiedPath(p);
    assert p == p[..|p| - |JsSuffix|] + JsSuffix;
    assert SourcePath(r) == r[..|r| - |MinJsSuffix|] + JsSuffix;
  }

  /** Two different source files never share an output file. */
  lemma MinifiedPathInjective(p: string, q: string)
    requires EndsWith(p, JsSuffix) && EndsWith(q, JsSuffix)
    requires MinifiedPath(p) == MinifiedPath(q)
    ensures p == q
  {
    SourcePathRoundTrip(p);
    SourcePathRoundTrip(q);
  }

  /** `path.join(dir, name)`, taken as the directory, one separator and the name. */
  function JoinPath(dir: string, name: string): string
  {
    dir + "/" + name
  }

  /** The output of a file lands in the same directory, under the file's
      name with `.js` replaced. */
  lemma OutputBesideSource(dir: string, name: string)
    requires EndsWith(name, JsSuffix)
    ensures MinifiedPath(JoinPath(dir, name)) == JoinPath(dir, MinifiedPath(name))
  {
    var base := name[..|name| - |JsSuffix|];
    assert name == base + JsSuffix;
    var prefix := dir + "/" + base;
    assert JoinPath(dir, name) == prefix + JsSuffix;
    MinifiedPathOfStem(base);
    MinifiedPathOfStem(prefix);
    assert JoinPath(dir, base + MinJsSuffix) == prefix + MinJsSuffix;
  }

  /** A path ending in `.js` keeps everything before that suffix. */
  lemma MinifiedPathOfStem(stem: string)
    ensures MinifiedPath(stem + JsSuffix) == stem + MinJsSuffix
  {
    var p := stem + JsSuffix;
    assert p[|p| - |JsSuffix|..] == JsSuffix;
    assert p[..|p| - |JsSuffix|] == stem;
  }
}

=== FILE: report.dfy ===
/** The plain-text report the folder mode sends back once the walk has
    completed: a summary of the counts, then one line per succeeded file and
    one line per failed file, each group under its own heading and only when
    it is not empty. */
module Report {
  import opened Js
  import opened Folder

  // ---------------------------------------------------------------------
  // Splitting the records
  // ---------------------------------------------------------------------

  /** `results.filter(r => r.success)`. */
  function SucceededOf(rs: seq<FileResult>): (s: seq<FileResult>)
    ensures |s| <= |rs|
    ensures forall k :: 0 <= k < |s| ==> s[k].Succeeded?
  {
    if rs == [] then []
    else (if rs[0].Succeeded? then [rs[0]] else []) + SucceededOf(rs[1..])
  }

  /** `results.filter(r => !r.success)`. */
  function FailedOf(rs: seq<FileResult>): (f: seq<FileResult>)
    ensures |f| <= |rs|
    ensures forall k :: 0 <= k < |f| ==> f[k].Failed?
  {
    if rs == [] then []
    else (if rs[0].Failed? then [rs[0]] else []) + FailedOf(rs[1..])
  }

  /** A record is listed as succeeded exactly when it is a record of the walk
      that succeeded, and as failed exactly when it is one that failed. */
  lemma FilterMembers(rs: seq<FileResult>)
    ensures forall x :: x in SucceededOf(rs) <==> x in rs && x.Succeeded?
    ensures forall x :: x in FailedOf(rs) <==> x in rs && x.Failed?
  {
    forall x
      ensures x in SucceededOf(rs) <==> x in rs && x.Succeeded?
      ensures x in FailedOf(rs) <==> x in rs && x.Failed?
    {
      SucceededMember(rs, x);
      FailedMember(rs, x);
    }
  }

  lemma {:induction false} SucceededMember(rs: seq<FileResult>, x: FileResult)
    ensures x in SucceededOf(rs) <==> x in rs && x.Succeeded?
  {
    if rs != [] {
      SucceededMember(rs[1..], x);
      assert rs == [rs[0]] + rs[1..];
    }
  }

  lemma {:induction false} FailedMember(rs: seq<FileResult>, x: FileResult)
    ensures x in FailedOf(rs) <==> x in rs && x.Failed?
  {
    if rs != [] {
      FailedMember(rs[1..], x);
      assert rs == [rs[0]] + rs[1..];
    }
  }

  /** The two groups together are the records of the walk, each exactly as
      often as the walk produced it. */
  lemma {:induction false} PartitionIsPermutation(rs: seq<FileResult>)
    ensures multiset(SucceededOf(rs)) + multiset(FailedOf(rs)) == multiset(rs)
  {
    if rs != [] {
      PartitionIsPermutation(rs[1..]);
      var h := rs[0];
      assert rs == [h] + rs[1..];
      assert multiset(rs) == multiset([h]) + multiset(rs[1..]);
      if h.Succeeded? {
        assert SucceededOf(rs) == [h] + SucceededOf(rs[1..]);
        assert FailedOf(rs) == FailedOf(rs[1..]);
      } else {
        assert SucceededOf(rs) == SucceededOf(rs[1..]);
        assert FailedOf(rs) == [h] + FailedOf(rs[1..]);
      }
    }
  }

  /** The printed counts add up: processed is succeeded plus failed. */
  lemma PartitionCounts(rs: seq<FileResult>)
    ensures |SucceededOf(rs)| + |FailedOf(rs)| == |rs|
  {
    PartitionIsPermutation(rs);
    assert |multiset(SucceededOf(rs)) + multiset(FailedOf(rs))| == |multiset(rs)|;
  }

  /** Filtering keeps the walk's order: the records of a longer walk are
      those of its first part followed by those of its second. */
  lemma {:induction false} FiltersDistribute(a: seq<FileResult>, b: seq<FileResult>)
    ensures SucceededOf(a + b) == SucceededOf(a) + SucceededOf(b)
    ensures FailedOf(a + b) == FailedOf(a) + FailedOf(b)
  {
    if a != [] {
      assert (a + b)[1..] == a[1..] + b;
      FiltersDistribute(a[1..], b);
    } else {
      assert a + b == b;
    }
  }

  // ---------------------------------------------------------------------
  // The report text
  // ---------------------------------------------------------------------

  const Header: string := "=== FOLDER MINIFICATION COMPLETE ===\n\n"
  const SucceededHeading: string := "--- SUCCEEDED ---\n"
  const FailedHeading: string := "--- FAILED ---\n"

  /** The line of one record in the succeeded group. */
  function SucceededLine(r: FileResult): string
    requires r.Succeeded?
  {
    r.source + " -> " + r.output + "\n"
  }

  /** The line of one record in the failed group. */
  function FailedLine(r: FileResult): string
    requires r.Failed?
  {
    r.source + ": " + r.error + "\n"
  }

  /** The title and the three counts. */
  function SummaryChunks(rs: seq<FileResult>): (c: seq<string>)
    ensures |c| == 4 && c[0] == Header
  {
    [Header,
     "Processed: " + NatToString(|rs|) + " files\n",
     "Succeeded: " + NatToString(|SucceededOf(rs)|) + "\n",
     "Failed: " + NatToString(|FailedOf(rs)|) + "\n\n"]
  }

  /** The succeeded group: nothing when there is no such record, otherwise
      the heading, one line per record and an empty line. */
  function SucceededGroup(s: seq<FileResult>): (g: seq<string>)
    requires forall k :: 0 <= k < |s| ==> s[k].Succeeded?
    ensures |g| == if |s| > 0 then |s| + 2 else 0
    ensures |s| > 0 ==> g[0] == SucceededHeading && g[|s| + 1] == "\n"
    ensures forall k :: 0 <= k < |s| ==> g[1 + k] == SucceededLine(s[k])
  {
    if |s| > 0 then [SucceededHeading] + seq(|s|, k requires 0 <= k < |s| => SucceededLine(s[k])) + ["\n"] else []
  }

  /** The failed group: nothing when there is no such record, otherwise the
      heading and one line per record. */
  function FailedGroup(f: seq<FileResult>): (g: seq<string>)
    requires forall k :: 0 <= k < |f| ==> f[k].Failed?
    ensures |g| == if |f| > 0 then |f| + 1 else 0
    ensures |f| > 0 ==> g[0] == FailedHeading
    ensures forall k :: 0 <= k < |f| ==> g[1 + k] == FailedLine(f[k])
  {
    if |f| > 0 then [FailedHeading] + seq(|f|, k requires 0 <= k < |f| => FailedLine(f[k])) else []
  }

  /** Where the failed group starts, given how many records succeeded: right
      after the counts, or after the succeeded group when there is one. */
  function FailedStart(succeeded: nat): nat
  {
    if succeeded > 0 then 4 + succeeded + 2 else 4
  }

  /** The four summary chunks followed by the two groups of records `s` and
      `f`, with every chunk at its place. */
  function Layout(summary: seq<string>, s: seq<FileResult>, f: seq<FileResult>): (ws: seq<string>)
    requires |summary| == 4
    requires forall k :: 0 <= k < |s| ==> s[k].Succeeded?
    requires forall k :: 0 <= k < |f| ==> f[k].Failed?
    ensures |ws| == FailedStart(|s|) + (if |f| > 0 then 1 + |f| else 0)
    ensures ws[..4] == summary
    ensures |s| > 0 ==> ws[4] == SucceededHeading && ws[5 + |s|] == "\n"
    ensures forall k :: 0 <= k < |s| ==> ws[5 + k] == SucceededLine(s[k])
    ensures |f| > 0 ==> ws[FailedStart(|s|)] == FailedHeading
    ensures forall k :: 0 <= k < |f| ==> ws[FailedStart(|s|) + 1 + k] == FailedLine(f[k])
  {
    var b := SucceededGroup(s);
    var c := FailedGroup(f);
    ThreePartIndex(summary, b, c);
    summary + b + c
  }

  /** Where the elements of each part land in a concatenation of three. */
  lemma ThreePartIndex(a: seq<string>, b: seq<string>, c: seq<string>)
    ensures (a + b + c)[..|a|] == a
    ensures forall k :: 0 <= k < |b| ==> (a + b + c)[|a| + k] == b[k]
    ensures forall k :: 0 <= k < |c| ==> (a + b + c)[|a| + |b| + k] == c[k]
  {
  }

  /** Where the failed group of the report for `rs` starts. */
  function FailedAt(rs: seq<FileResult>): nat
  {
    FailedStart(|SucceededOf(rs)|)
  }

  /** The chunks the handler passes to `res.write` for a completed walk, in
      order: the title and the three counts, then each non-empty group under
      its heading (laid out as `ReportGroups` states). */
  function ReportWrites(rs: seq<FileResult>): (ws: seq<string>)
    ensures |ws| == FailedAt(rs) + (if |FailedOf(rs)| > 0 then 1 + |FailedOf(rs)| else 0)
    ensures ws[..4] == SummaryChunks(rs)
  {
    Layout(SummaryChunks(rs), SucceededOf(rs), FailedOf(rs))
  }

  /** The groups of the report: the succeeded group starts right after the
      counts, with one line per succeeded record in walk order and an empty
      line after the last; the failed group follows, with one line per failed
      record in walk order. */
  lemma ReportGroups(rs: seq<FileResult>)
    ensures var ws := ReportWrites(rs);
            var s := SucceededOf(rs);
            var f := FailedOf(rs);
            && (|s| > 0 ==> ws[4] == SucceededHeading && ws[5 + |s|] == "\n")
            && (forall k :: 0 <= k < |s| ==> ws[5 + k] == SucceededLine(s[k]))
            && (|f| > 0 ==> ws[FailedAt(rs)] == FailedHeading)
            && (forall k :: 0 <= k < |f| ==> ws[FailedAt(rs) + 1 + k] == FailedLine(f[k]))
  {
    var s := SucceededOf(rs);
    var f := FailedOf(rs);
    var ws := ReportWrites(rs);
    assert ws == Layout(SummaryChunks(rs), s, f);
    assert FailedAt(rs) == FailedStart(|s|);
  }

  /** The line of the `j`-th succeeded record. */
  lemma SucceededLineAt(rs: seq<FileResult>, j: nat)
    requires j < |SucceededOf(rs)|
    ensures 5 + j < |ReportWrites(rs)|
    ensures ReportWrites(rs)[5 + j] == SucceededLine(SucceededOf(rs)[j])
  {
    ReportGroups(rs);
  }

  /** The line of the `j`-th failed record. */
  lemma FailedLineAt(rs: seq<FileResult>, j: nat)
    requires j < |FailedOf(rs)|
    ensures FailedAt(rs) + 1 + j < |ReportWrites(rs)|
    ensures ReportWrites(rs)[FailedAt(rs) + 1 + j] == FailedLine(FailedOf(rs)[j])
  {
    ReportGroups(rs);
  }

  /** The summary opens the report with the title, and the processed count
      it prints is the sum of the succeeded and the failed count. */
  lemma ReportCounts(rs: seq<FileResult>)
    ensures var ws := ReportWrites(rs);
            && ws[0] == Header
            && ws[1] == "Processed: " + NatToString(|SucceededOf(rs)| + |FailedOf(rs)|) + " files\n"
            && ws[2] == "Succeeded: " + NatToString(|SucceededOf(rs)|) + "\n"
            && ws[3] == "Failed: " + NatToString(|FailedOf(rs)|) + "\n\n"
  {
    var ws := ReportWrites(rs);
    PartitionCounts(rs);
    assert ws[0] == ws[..4][0] && ws[1] == ws[..4][1] && ws[2] == ws[..4][2] && ws[3] == ws[..4][3];
  }

  /** Every succeeded record of the walk has its line in the succeeded group. */
  lemma SucceededRecordsReported(rs: seq<FileResult>)
    ensures forall r :: r in rs && r.Succeeded? ==>
              exists k :: 5 <= k < 5 + |SucceededOf(rs)| && ReportWrites(rs)[k] == SucceededLine(r)
  {
    var s := SucceededOf(rs);
    forall r | r in rs && r.Succeeded?
      ensures exists k :: 5 <= k < 5 + |s| && ReportWrites(rs)[k] == SucceededLine(r)
    {
      SucceededMember(rs, r);
      var j :| 0 <= j < |s| && s[j] == r;
      SucceededLineAt(rs, j);
    }
  }

  /** Every line of the succeeded group is the line of a record of the walk
      that succeeded: the line at `5 + j` is that of the `j`-th such record. */
  lemma SucceededGroupFromRecords(rs: seq<FileResult>)
    ensures forall j :: 0 <= j < |SucceededOf(rs)| ==>
              && SucceededOf(rs)[j] in rs && SucceededOf(rs)[j].Succeeded?
              && ReportWrites(rs)[5 + j] == SucceededLine(SucceededOf(rs)[j])
  {
    var s := SucceededOf(rs);
    forall j | 0 <= j < |s|
      ensures s[j] in rs && ReportWrites(rs)[5 + j] == SucceededLine(s[j])
    {
      assert s[j] in s;
      SucceededMember(rs, s[j]);
      SucceededLineAt(rs, j);
    }
  }

  /** Every failed record of the walk has its line in the failed group. */
  lemma FailedRecordsReported(rs: seq<FileResult>)
    ensures forall r :: r in rs && r.Failed? ==>
              exists k :: FailedAt(rs) < k < |ReportWrites(rs)| && ReportWrites(rs)[k] == FailedLine(r)
  {
    var f := FailedOf(rs);
    forall r | r in rs && r.Failed?
      ensures exists k :: FailedAt(rs) < k < |ReportWrites(rs)| && ReportWrites(rs)[k] == FailedLine(r)
    {
      FailedMember(rs, r);
      var j :| 0 <= j < |f| && f[j] == r;
      FailedLineAt(rs, j);
    }
  }

  /** Every line of the failed group is the line of a record of the walk
      that failed: the line `1 + j` after the heading is that of the `j`-th
      such record. */
  lemma FailedGroupFromRecords(rs: seq<FileResult>)
    ensures forall j :: 0 <= j < |FailedOf(rs)| ==>
              && FailedOf(rs)[j] in rs && FailedOf(rs)[j].Failed?
              && ReportWrites(rs)[FailedAt(rs) + 1 + j] == FailedLine(FailedOf(rs)[j])
  {
    var f := FailedOf(rs);
    forall j | 0 <= j < |f|
      ensures f[j] in rs && ReportWrites(rs)[FailedAt(rs) + 1 + j] == FailedLine(f[j])
    {
      assert f[j] in f;
      FailedMember(rs, f[j]);
      FailedLineAt(rs, j);
    }
  }

  // ---------------------------------------------------------------------
  // Examples
  // ---------------------------------------------------------------------

  /** A walk that found nothing to minify still reports its zero counts, and
      neither group. */
  lemma EmptyReport()
    ensures ReportWrites([]) ==
              ["=== FOLDER MINIFICATION COMPLETE ===\n\n", "Processed: 0 files\n", "Succeeded: 0\n", "Failed: 0\n\n"]
  {
    var ws := ReportWrites([]);
    assert SucceededOf([]) == [] && FailedOf([]) == [];
    assert NatToString(0) == "0";
    assert ws[1] == "Processed: 0 files\n";
    assert ws[2] == "Succeeded: 0\n";
    assert ws[3] == "Failed: 0\n\n";
  }

  const ThreeResults: seq<FileResult> :=
    [Succeeded("d/a.js", "d/a.min.js"), Failed("d/b.js", "Unexpected token"), Succeeded("d/c.js", "d/c.min.js")]

  lemma ThreeResultsSplit()
    ensures SucceededOf(ThreeResults) == [ThreeResults[0], ThreeResults[2]]
    ensures FailedOf(ThreeResults) == [ThreeResults[1]]
  {
    assert ThreeResults[1..][1..] == [ThreeResults[2]];
  }

  lemma SmallNumerals()
    ensures NatToString(1) == "1" && NatToString(2) == "2" && NatToString(3) == "3"
  {
  }

  lemma ThreeFilesCounts()
    ensures ReportWrites(ThreeResults)[..4] ==
              ["=== FOLDER MINIFICATION COMPLETE ===\n\n", "Processed: 3 files\n", "Succeeded: 2\n", "Failed: 1\n\n"]
  {
    var ws := ReportWrites(ThreeResults);
    ThreeResultsSplit();
    SmallNumerals();
    assert ws[1] == "Processed: 3 files\n";
    assert ws[2] == "Succeeded: 2\n";
    assert ws[3] == "Failed: 1\n\n";
  }

  lemma FirstLine()
    ensures SucceededLine(ThreeResults[0]) == "d/a.js -> d/a.min.js\n"
  {
  }

  lemma SecondLine()
    ensures FailedLine(ThreeResults[1]) == "d/b.js: Unexpected token\n"
  {
  }

  lemma ThirdLine()
    ensures SucceededLine(ThreeResults[2]) == "d/c.js -> d/c.min.js\n"
  {
  }

  lemma ThreeFilesGroups()
    ensures ReportWrites(ThreeResults)[4..] ==
              ["--- SUCCEEDED ---\n", "d/a.js -> d/a.min.js\n", "d/c.js -> d/c.min.js\n", "\n",
               "--- FAILED ---\n", "d/b.js: Unexpected token\n"]
  {
    var ws := ReportWrites(ThreeResults);
    ThreeResultsSplit();
    FirstLine();
    SecondLine();
    ThirdLine();
    ReportGroups(ThreeResults);
    assert |ws| == 10;
    assert ws[5] == SucceededLine(ThreeResults[0]);
    assert ws[6] == SucceededLine(ThreeResults[2]);
    assert ws[9] == FailedLine(ThreeResults[1]);
  }

  /** Three files, the second of which fails: the counts, then both succeeded
      files in walk order, then the failed one with its message. */
  lemma ThreeFilesOneFailure()
    ensures ReportWrites(ThreeResults) ==
              ["=== FOLDER MINIFICATION COMPLETE ===\n\n", "Processed: 3 files\n", "Succeeded: 2\n", "Failed: 1\n\n",
               "--- SUCCEEDED ---\n", "d/a.js -> d/a.min.js\n", "d/c.js -> d/c.min.js\n", "\n",
               "--- FAILED ---\n", "d/b.js: Unexpected token\n"]
  {
    var ws := ReportWrites(ThreeResults);
    ThreeFilesCounts();
    ThreeFilesGroups();
    assert ws == ws[..4] + ws[4..];
  }
}

=== FILE: server.dfy ===
/** The request handler: which mode a query selects, what the response body
    is in each mode, and which files a request writes. Every response has
    status 200 and content type `text/plain`, whatever happens. */
module Server {
  import opened Wrappers
  import opened Js
  import opened Paths
  import opened Folder
  import opened Report

  /** The two query parameters the handler reads; `None` when absent. */
  datatype Query = Query(folder: Option<string>, file: Option<string>)

  /** A query value as an `if` condition sees it: present and not empty. */
  predicate Truthy(v: Option<string>)
  {
    v.Some? && v.value != ""
  }

  datatype Mode = FolderMode(path: string) | FileMode(path: string) | UsageMode

  /** The handler's `if`/`else if`/`else`: a usable `folder` wins, a usable
      `file` comes next, anything else gets the usage text. */
  function Dispatch(q: Query): (m: Mode)
    ensures m.FolderMode? <==> Truthy(q.folder)
    ensures m.FileMode? <==> !Truthy(q.folder) && Truthy(q.file)
    ensures m.UsageMode? <==> !Truthy(q.folder) && !Truthy(q.file)
    ensures m.FolderMode? ==> m.path == q.folder.value
    ensures m.FileMode? ==> m.path == q.file.value
  {
    if Truthy(q.folder) then FolderMode(q.folder.value)
    else if Truthy(q.file) then FileMode(q.file.value)
    else UsageMode
  }

  /** A response: its status, its content type and the chunks written to it. */
  datatype Response = Response(status: nat, contentType: string, chunks: seq<string>)

  /** What one request does: the response it sends and the files it writes. */
  datatype Outcome = Outcome(response: Response, writes: seq<Write>)

  const ErrorMarker: string := "---ERROR  \n\n\n"
  const UsageFile: string := "Specify the file: ?file=C:\\path\\to\\file.js\n"
  const UsageFolder: string := "Or minify folder: ?folder=C:\\path\\to\\folder"

  /** The chunks sent when a promise of the handler rejects. */
  function ErrorChunks(e: JsError): seq<string>
  {
    [ErrorMarker, ErrorToString(e)]
  }

  /** The folder mode: the report when the walk completes, the error marker
      and the error otherwise; the files written before a failure stay
      written. */
  function FolderOutcome(path: string, readDir: string -> Result<Listing, JsError>,
                         transform: string -> Result<string, JsError>,
                         write: (string, string) -> Option<JsError>): Outcome
  {
    var w := MinifyFolder(path, readDir(path), transform, write);
    var chunks := match w.aborted
      case Some(err) => ErrorChunks(err)
      case None => ReportWrites(w.results);
    Outcome(Response(200, "text/plain", chunks), w.writes)
  }

  /** The file mode: the transformed code itself, or the error marker and the
      error. Nothing is written to disk. */
  function FileOutcome(path: string, transform: string -> Result<string, JsError>): Outcome
  {
    var chunks := match transform(path)
      case Success(code) => [code]
      case Failure(err) => ErrorChunks(err);
    Outcome(Response(200, "text/plain", chunks), [])
  }

  /** One request, given the directory reader, the transform and the file
      writer. */
  function Handle(q: Query, readDir: string -> Result<Listing, JsError>,
                  transform: string -> Result<string, JsError>,
                  write: (string, string) -> Option<JsError>): (o: Outcome)
    ensures o.response.status == 200 && o.response.contentType == "text/plain"
    ensures !Dispatch(q).FolderMode? ==> o.writes == []
    ensures Dispatch(q).UsageMode? ==> o.response.chunks == [UsageFile, UsageFolder]
  {
    match Dispatch(q)
    case FolderMode(path) => FolderOutcome(path, readDir, transform, write)
    case FileMode(path) => FileOutcome(path, transform)
    case UsageMode => Outcome(Response(200, "text/plain", [UsageFile, UsageFolder]), [])
  }

  /** A folder request answers with the error marker exactly when the walk
      was stopped by a directory that could not be read, and then with the
      marker and the string form of that directory's error and nothing
      else; a completed walk always answers with the report title. The
      error is the folder's own when the folder cannot be read, and
      otherwise that of the first unreadable directory below it. */
  lemma FolderErrorIffAborted(q: Query, readDir: string -> Result<Listing, JsError>,
                              transform: string -> Result<string, JsError>,
                              write: (string, string) -> Option<JsError>)
    requires Truthy(q.folder)
    ensures var o := Handle(q, readDir, transform, write);
            var w := MinifyFolder(q.folder.value, readDir(q.folder.value), transform, write);
            && (o.response.chunks[0] == ErrorMarker <==> w.aborted.Some?)
            && (w.aborted.None? <==> o.response.chunks[0] == Header)
            && (w.aborted.Some? ==> o.response.chunks == [ErrorMarker, ErrorToString(w.aborted.value)])
            && (readDir(q.folder.value).Failure? ==> w.aborted == Some(readDir(q.folder.value).error))
            && (readDir(q.folder.value).Success? ==> w.aborted == FirstReadError(readDir(q.folder.value).value))
  {
    assert Header[0] != ErrorMarker[0];
    var path := q.folder.value;
    if readDir(path).Success? {
      WalkFollowsEligibleFiles(path, readDir(path).value, transform, write);
    }
  }

  /** A folder request writes what its walk writes. */
  lemma FolderWritesAreWalkWrites(q: Query, readDir: string -> Result<Listing, JsError>,
                                  transform: string -> Result<string, JsError>,
                                  write: (string, string) -> Option<JsError>)
    requires Truthy(q.folder)
    ensures Handle(q, readDir, transform, write).writes
            == MinifyFolder(q.folder.value, readDir(q.folder.value), transform, write).writes
  {
  }

  /** A folder request writes the outputs of the eligible files under the
      folder in walk order: all of them when every directory can be read,
      and otherwise exactly those met before the first unreadable one. */
  lemma FolderWritesEligibleFiles(q: Query, readDir: string -> Result<Listing, JsError>,
                                  transform: string -> Result<string, JsError>,
                                  write: (string, string) -> Option<JsError>)
    requires Truthy(q.folder)
    ensures var path := q.folder.value;
            var o := Handle(q, readDir, transform, write);
            && (readDir(path).Failure? ==> o.writes == [])
            && (readDir(path).Success? ==>
                  var files := EligibleFiles(path, readDir(path).value);
                  && (exists n :: 0 <= n <= |files| && o.writes == WritesFor(files[..n], transform))
                  && (AllReadable(readDir(path).value) ==> o.writes == WritesFor(files, transform))
                  && o.writes == WritesFor(FilesBeforeAbort(path, readDir(path).value), transform))
  {
    var path := q.folder.value;
    FolderWritesAreWalkWrites(q, readDir, transform, write);
    if readDir(path).Success? {
      WalkWritesEligiblePrefix(path, readDir(path).value, transform, write);
    }
  }

  /** A folder request whose tree can be read in full reports one record per
      eligible file, in walk order, so the processed count is the number of
      eligible files. */
  lemma FolderReportCoversEligibleFiles(q: Query, readDir: string -> Result<Listing, JsError>,
                                        transform: string -> Result<string, JsError>,
                                        write: (string, string) -> Option<JsError>)
    requires Truthy(q.folder) && readDir(q.folder.value).Success?
    requires AllReadable(readDir(q.folder.value).value)
    ensures var path := q.folder.value;
            var files := EligibleFiles(path, readDir(path).value);
            exists rs: seq<FileResult> ::
              && Handle(q, readDir, transform, write).response.chunks == ReportWrites(rs)
              && |rs| == |files|
              && (forall i :: 0 <= i < |rs| ==> rs[i] == FileResultOf(files[i], transform, write))
  {
    var path := q.folder.value;
    var entries := readDir(path).value;
    WalkFollowsEligibleFiles(path, entries, transform, write);
    var rs := WalkEntries(path, entries, transform, write).results;
    assert Handle(q, readDir, transform, write).response.chunks == ReportWrites(rs);
  }

  /** A file request answers with the transformed code, or with the error
      marker followed by the error's string form. */
  lemma FileRequestBody(q: Query, readDir: string -> Result<Listing, JsError>,
                        transform: string -> Result<string, JsError>,
                        write: (string, string) -> Option<JsError>)
    requires !Truthy(q.folder) && Truthy(q.file)
    ensures var o := Handle(q, readDir, transform, write);
            match transform(q.file.value)
            case Success(code) => o.response.chunks == [code]
            case Failure(err) => o.response.chunks == [ErrorMarker, ErrorToString(err)]
  {
  }

  /** An empty `folder` parameter does not select the folder mode: the
      request falls through to `file`, or to the usage text. */
  lemma EmptyFolderFallsThrough(file: Option<string>)
    ensures Dispatch(Query(Some(""), file)) == Dispatch(Query(None, file))
    ensures Dispatch(Query(Some(""), Some("a.js"))) == FileMode("a.js")
    ensures Dispatch(Query(Some(""), Some(""))) == UsageMode
  {
  }

  /** A usable `folder` parameter decides the request, whatever `file` says. */
  lemma FolderWinsOverFile(folder: string, file: Option<string>)
    requires folder != ""
    ensures Dispatch(Query(Some(folder), file)) == FolderMode(folder)
  {
  }
}

=== FILE: whitespace.dfy ===
/** The three regular-expression rewrites the template-literal visitor applies
    to one literal segment, each written as an explicit function over the
    segment's text, together with the match conditions of the regular
    expressions they stand for. */
module Whitespace {

  /** JavaScript's `\s` class: the WhiteSpace and LineTerminator code points
      of ECMA-262 (sections 12.2 and 12.3), that is tab, line feed, vertical
      tab, form feed, carriage return, the byte-order mark, the line and
      paragraph separators and every space separator of Unicode category Zs. */
  predicate IsWs(c: char)
  {
    || c == '\t' || c == '\n' || c == '\U{000B}' || c == '\U{000C}' || c == '\r'
    || c == ' ' || c == '\U{00A0}' || c == '\U{1680}'
    || ('\U{2000}' <= c <= '\U{200A}')
    || c == '\U{2028}' || c == '\U{2029}' || c == '\U{202F}' || c == '\U{205F}'
    || c == '\U{3000}' || c == '\U{FEFF}'
  }

  /** The class `[\r\n\t]`: the characters whose presence makes a boundary
      whitespace run removable. */
  predicate IsBreak(c: char)
  {
    c == '\r' || c == '\n' || c == '\t'
  }

  predicate AllWs(t: string)
  {
    forall k :: 0 <= k < |t| ==> IsWs(t[k])
  }

  predicate HasBreak(t: string)
  {
    exists k :: 0 <= k < |t| && IsBreak(t[k])
  }

  /** The characters of `s` that are not whitespace, in order. */
  function NonWs(s: string): string
  {
    if |s| == 0 then [] else (if IsWs(s[0]) then [] else [s[0]]) + NonWs(s[1..])
  }

  /** The text the visitor leaves behind: every whitespace character is a
      plain space and no two whitespace characters are adjacent. */
  predicate Collapsed(s: string)
  {
    && (forall k :: 0 <= k < |s| && IsWs(s[k]) ==> s[k] == ' ')
    && (forall k :: 0 <= k < |s| - 1 ==> !(IsWs(s[k]) && IsWs(s[k + 1])))
  }

  /** The length of the whitespace run in `s` that starts at index `i`. */
  function LeadingRun(s: string, i: nat): (n: nat)
    requires i <= |s|
    ensures i + n <= |s|
    ensures forall k :: i <= k < i + n ==> IsWs(s[k])
    ensures i + n < |s| ==> !IsWs(s[i + n])
    decreases |s| - i
  {
    if i < |s| && IsWs(s[i]) then 1 + LeadingRun(s, i + 1) else 0
  }

  /** The length of the whitespace run in `s` that ends just before index `j`. */
  function TrailingRun(s: string, j: nat): (n: nat)
    requires j <= |s|
    ensures n <= j
    ensures forall k :: j - n <= k < j ==> IsWs(s[k])
    ensures n < j ==> !IsWs(s[j - n - 1])
  {
    if j > 0 && IsWs(s[j - 1]) then 1 + TrailingRun(s, j - 1) else 0
  }

  /** The length of the maximal whitespace run at the start of `s`. */
  function LeadingWsLen(s: string): (n: nat)
    ensures n <= |s|
    ensures AllWs(s[..n])
    ensures n < |s| ==> !IsWs(s[n])
  {
    LeadingRun(s, 0)
  }

  /** The length of the maximal whitespace run at the end of `s`. */
  function TrailingWsLen(s: string): (n: nat)
    ensures n <= |s|
    ensures AllWs(s[|s| - n..])
    ensures n < |s| ==> !IsWs(s[|s| - n - 1])
  {
    TrailingRun(s, |s|)
  }

  /** The leading run length is the one length whose prefix is all
      whitespace and is followed by a non-whitespace character or the end. */
  lemma LeadingWsLenIs(s: string, m: nat)
    requires m <= |s| && AllWs(s[..m]) && (m < |s| ==> !IsWs(s[m]))
    ensures LeadingWsLen(s) == m
  {
    // a shorter run would stop at a whitespace character of the longer
    // one, which the run-length ensures rule out
  }

  /** The trailing run length is the one length whose suffix is all
      whitespace and is preceded by a non-whitespace character or the start. */
  lemma TrailingWsLenIs(s: string, m: nat)
    requires m <= |s| && AllWs(s[|s| - m..]) && (m < |s| ==> !IsWs(s[|s| - m - 1]))
    ensures TrailingWsLen(s) == m
  {
    // a shorter run would stop at a whitespace character of the longer
    // one, which the run-length ensures rule out
  }

  // ---------------------------------------------------------------------
  // What the regular expressions match
  // ---------------------------------------------------------------------

  /** `/\s*[\r\n\t]\s*$/` has a match starting at index `i` of `s`: the whole
      rest of `s` from `i` is whitespace and contains a break character
      (there is no `m` flag, so `$` is the end of the text). */
  predicate TrailingMatchAt(s: string, i: int)
  {
    0 <= i <= |s| && AllWs(s[i..]) && HasBreak(s[i..])
  }

  /** The regular expression `^\s*[\r\n\t]\s*` can match the first `j`
      characters of `s`: they are all whitespace and contain a break
      character. */
  predicate LeadingMatchOf(s: string, j: int)
  {
    0 <= j <= |s| && AllWs(s[..j]) && HasBreak(s[..j])
  }

  /** A break found in a window of `s` is found in every window around it. */
  lemma BreakInWiderWindow(s: string, a: int, b: int, c: int, d: int)
    requires 0 <= a <= c <= d <= b <= |s|
    requires HasBreak(s[c..d])
    ensures HasBreak(s[a..b])
  {
    var k :| 0 <= k < d - c && IsBreak(s[c..d][k]);
    assert s[a..b][k + c - a] == s[c..d][k];
  }

  /** `s.replace(/\s*[\r\n\t]\s*$/, '')`, computed from the maximal
      trailing whitespace run: it is removed when it holds a break character.
      The result is a prefix of `s` and only whitespace is cut off. */
  function TrimEnd(s: string): (r: string)
    ensures |r| <= |s| && r == s[..|r|]
    ensures AllWs(s[|r|..])
  {
    var k := |s| - TrailingWsLen(s);
    if HasBreak(s[k..]) then s[..k] else s
  }

  /** `TrimEnd` does what the regular expression does: a non-global replace
      removes the leftmost match, and every match runs to the end of the
      text, so `s` is cut at the leftmost index where a match starts, and is
      unchanged when the regular expression does not match. */
  lemma TrimEndRemovesLeftmostMatch(s: string)
    ensures (exists i :: TrailingMatchAt(s, i)) ==>
              exists i :: && TrailingMatchAt(s, i)
                          && (forall i' :: TrailingMatchAt(s, i') ==> i <= i')
                          && TrimEnd(s) == s[..i]
    ensures (forall i :: !TrailingMatchAt(s, i)) ==> TrimEnd(s) == s
  {
    var k := |s| - TrailingWsLen(s);
    // every match starts inside the maximal trailing whitespace run
    assert forall i' :: TrailingMatchAt(s, i') ==> k <= i';
    if HasBreak(s[k..]) {
      assert TrailingMatchAt(s, k);
    } else {
      forall i | TrailingMatchAt(s, i) ensures false {
        BreakInWiderWindow(s, k, |s|, i, |s|);
      }
    }
  }

  /** `s` with its match of `^\s*[\r\n\t]\s*` replaced by `''`, computed
      from the maximal leading whitespace run: it is removed when it holds a
      break character. The result is a suffix of `s` and only whitespace is
      cut off. */
  function TrimStart(s: string): (r: string)
    ensures |r| <= |s| && r == s[|s| - |r|..]
    ensures AllWs(s[..|s| - |r|])
  {
    var n := LeadingWsLen(s);
    if HasBreak(s[..n]) then s[n..] else s
  }

  /** `TrimStart` does what the regular expression does: the match is
      anchored at the start and both `\s*` are greedy, so the longest
      matching prefix is removed, and `s` is unchanged when the regular
      expression does not match. */
  lemma TrimStartRemovesLongestMatch(s: string)
    ensures (exists j :: LeadingMatchOf(s, j)) ==>
              exists j :: && LeadingMatchOf(s, j)
                          && (forall j' :: LeadingMatchOf(s, j') ==> j' <= j)
                          && TrimStart(s) == s[j..]
    ensures (forall j :: !LeadingMatchOf(s, j)) ==> TrimStart(s) == s
  {
    var n := LeadingWsLen(s);
    // every match ends inside the maximal leading whitespace run
    assert forall j' :: LeadingMatchOf(s, j') ==> j' <= n;
    if HasBreak(s[..n]) {
      assert LeadingMatchOf(s, n);
    } else {
      forall j | LeadingMatchOf(s, j) ensures false {
        BreakInWiderWindow(s, 0, n, 0, j);
      }
    }
  }

  // ---------------------------------------------------------------------
  // Whitespace-only text and the non-whitespace characters
  // ---------------------------------------------------------------------

  lemma {:induction false} NonWsAppend(a: string, b: string)
    ensures NonWs(a + b) == NonWs(a) + NonWs(b)
  {
    if |a| > 0 {
      assert (a + b)[1..] == a[1..] + b;
      NonWsAppend(a[1..], b);
    } else {
      assert a + b == b;
    }
  }

  lemma {:induction false} NonWsOfAllWs(t: string)
    requires AllWs(t)
    ensures NonWs(t) == []
  {
    if |t| > 0 {
      NonWsOfAllWs(t[1..]);
    }
  }

  /** Text without a non-whitespace character is all whitespace. */
  lemma {:induction false} AllWsOfNoNonWs(t: string)
    requires NonWs(t) == []
    ensures AllWs(t)
  {
    if |t| > 0 {
      AllWsOfNoNonWs(t[1..]);
      assert forall k :: 1 <= k < |t| ==> t[k] == t[1..][k - 1];
    }
  }

  /** Dropping whitespace at position `i` onwards or before position `i` keeps the non-whitespace characters. */
  lemma NonWsDropWs(s: string, i: nat)
    requires i <= |s|
    ensures AllWs(s[i..]) ==> NonWs(s[..i]) == NonWs(s)
    ensures AllWs(s[..i]) ==> NonWs(s[i..]) == NonWs(s)
  {
    assert s == s[..i] + s[i..];
    NonWsAppend(s[..i], s[i..]);
    if AllWs(s[i..]) {
      NonWsOfAllWs(s[i..]);
    }
    if AllWs(s[..i]) {
      NonWsOfAllWs(s[..i]);
    }
  }

  /** The trailing trim only removes whitespace. */
  lemma TrimEndKeepsNonWs(s: string)
    ensures NonWs(TrimEnd(s)) == NonWs(s)
  {
    NonWsDropWs(s, |TrimEnd(s)|);
  }

  /** The leading trim only removes whitespace. */
  lemma TrimStartKeepsNonWs(s: string)
    ensures NonWs(TrimStart(s)) == NonWs(s)
  {
    NonWsDropWs(s, |s| - |TrimStart(s)|);
  }

  // ---------------------------------------------------------------------
  // Collapse
  // ---------------------------------------------------------------------

  /** What the collapse of `s` is: collapsed text with the same
      non-whitespace characters in the same order, no longer than `s`, empty
      exactly when `s` is, and starting and ending with whitespace exactly
      when `s` does. */
  predicate CollapseOf(s: string, r: string)
  {
    && Collapsed(r)
    && NonWs(r) == NonWs(s)
    && |r| <= |s|
    && (|s| == 0 <==> |r| == 0)
    && (|s| > 0 ==> (IsWs(r[0]) <==> IsWs(s[0])))
    && (|s| > 0 ==> (IsWs(r[|r| - 1]) <==> IsWs(s[|s| - 1])))
  }

  /** `s.replace(/\s+/g, ' ')`: scanning left to right, each maximal
      whitespace run (the greedy `\s+`) becomes one space and every other
      character is copied. */
  function Collapse(s: string): (r: string)
    ensures CollapseOf(s, r)
    decreases |s|
  {
    if |s| == 0 then []
    else if IsWs(s[0]) then
      var n := LeadingWsLen(s);
      var rest := Collapse(s[n..]);
      CollapseRunStep(s, n, rest);
      [' '] + rest
    else
      var rest := Collapse(s[1..]);
      CollapseCharStep(s, rest);
      [s[0]] + rest
  }

  /** A space put before the collapse of what follows a maximal leading
      whitespace run is the collapse of the whole text. */
  lemma CollapseRunStep(s: string, n: nat, rest: string)
    requires 0 < n <= |s| && AllWs(s[..n]) && (n < |s| ==> !IsWs(s[n]))
    requires CollapseOf(s[n..], rest)
    ensures CollapseOf(s, [' '] + rest)
  {
    var r := [' '] + rest;
    NonWsDropWs(s, n);
    NonWsAppend([' '], rest);
    assert IsWs(s[..n][0]);
    if n < |s| {
      assert s[n..][0] == s[n];
      assert s[n..][|s[n..]| - 1] == s[|s| - 1];
      assert forall k :: 1 <= k < |r| ==> r[k] == rest[k - 1];
    } else {
      assert IsWs(s[..n][n - 1]);
    }
  }

  /** Text made only of whitespace collapses to one space. */
  lemma CollapseOfAllWs(s: string)
    ensures AllWs(s) && s != [] ==> Collapse(s) == [' ']
  {
    if AllWs(s) && s != [] {
      assert s[..|s|] == s;
      LeadingWsLenIs(s, |s|);
      assert s[|s|..] == [];
    }
  }

  /** A non-whitespace character put before the collapse of the rest of the
      text is the collapse of the whole text. */
  lemma CollapseCharStep(s: string, rest: string)
    requires 0 < |s| && !IsWs(s[0])
    requires CollapseOf(s[1..], rest)
    ensures CollapseOf(s, [s[0]] + rest)
  {
    var r := [s[0]] + rest;
    NonWsAppend([s[0]], rest);
    assert forall k :: 1 <= k < |r| ==> r[k] == rest[k - 1];
  }

  lemma CollapsedHasNoBreak(s: string)
    requires Collapsed(s)
    ensures !HasBreak(s)
  {
  }

  /** Collapsing changes nothing exactly when the text is already collapsed. */
  lemma {:induction false} CollapseFixpoint(s: string)
    ensures Collapse(s) == s <==> Collapsed(s)
  {
    if Collapsed(s) && |s| > 0 {
      assert Collapsed(s[1..]) by {
        assert forall k :: 0 <= k < |s| - 1 ==> s[1..][k] == s[k + 1];
      }
      CollapseFixpoint(s[1..]);
      if IsWs(s[0]) {
        assert LeadingWsLen(s) == 1 by {
          assert |s| > 1 ==> !IsWs(s[1]);
          assert s[1..][..0] == [];
        }
      }
    }
  }

  /** An independent, character-at-a-time reading of `/\s+/g` → ' ': a
      whitespace character right after whitespace is dropped, any other
      whitespace character becomes a space, and every other character is
      kept. `afterWs` says whether the character before `s` was whitespace. */
  function CollapseFrom(s: string, afterWs: bool): string
  {
    if |s| == 0 then []
    else if IsWs(s[0]) then (if afterWs then [] else [' ']) + CollapseFrom(s[1..], true)
    else [s[0]] + CollapseFrom(s[1..], false)
  }

  /** Inside a whitespace run, the character rule emits nothing. */
  lemma {:induction false} CollapseFromSkipsRun(s: string, n: nat)
    requires n <= |s| && AllWs(s[..n])
    ensures CollapseFrom(s, true) == CollapseFrom(s[n..], true)
  {
    if n > 0 {
      assert IsWs(s[..n][0]);
      assert s[1..][..n - 1] == s[..n][1..];
      CollapseFromSkipsRun(s[1..], n - 1);
      assert s[1..][n - 1..] == s[n..];
    }
  }

  /** The run-by-run rewrite agrees with the character rule on every text. */
  lemma {:induction false} CollapseMatchesCharRule(s: string)
    ensures Collapse(s) == CollapseFrom(s, false)
    decreases |s|
  {
    if |s| > 0 {
      if IsWs(s[0]) {
        var n := LeadingWsLen(s);
        CollapseMatchesCharRule(s[n..]);
        assert s[1..][..n - 1] == s[..n][1..];
        CollapseFromSkipsRun(s[1..], n - 1);
        assert s[1..][n - 1..] == s[n..];
        // after the run comes a non-whitespace character or the end
        if n < |s| {
          assert s[n..][0] == s[n];
        }
      } else {
        CollapseMatchesCharRule(s[1..]);
      }
    }
  }
}

=== FILE: wrappers.dfy ===
/** Optional values and success/failure results, used for the program's
    optional query parameters, its promise rejections and its write outcomes. */
module Wrappers {

  /** A value that may be absent. */
  datatype Option<+T> = None | Some(value: T)

  /** The outcome of an operation that either produces a value or fails. */
  datatype Result<+R, +E> = Success(value: R) | Failure(error: E)
}
